=== FILE: README.md ===
# Automotive stock monitor — a Dafny model of its decision core

The system watches ten automotive stocks. Here is what it does:

- It picks the tickers from a known list, by sector and by market capitalisation.
- It downloads 90 trading days of daily bars into a MySQL table.
- It refreshes each ticker's latest quote.
- It compares the latest price with the 7-, 30- and 90-trading-day averages of the stored closes.
- It sends Telegram messages:
  - an alert per ticker that trades below an average;
  - a periodic real-time update;
  - a daily summary.

This project models the decisions behind all of that as pure Dafny functions over immutable data, and proves what the code promises.

- **Tables as maps.** The two database tables become maps keyed by their unique identity:
  - `stock_daily` is keyed by (ticker, date);
  - `stock_latest` is keyed by ticker.

  `REPLACE INTO` becomes a map update. `ORDER BY … LIMIT` becomes an explicit descending enumeration (`Database`).
- **Threshold evaluator** (`Analytics`). The per-ticker analysis records and the daily-summary counters.
- **Alert logic** (`Alerts`). This covers:
  - the alert lines and their order;
  - the period names;
  - trend, volatility, alert level, sentiment, risk and opportunity buckets;
  - the up/down/flat counts and the key insights of the real-time update.
- **Market hours** (`MarketHours`). The open/closed test at fixed European offsets, with the clock passed in.
- **Retry loop** (`Retry`). The doubling-delay retry the code writes three times. The delays are returned as a list instead of slept.
- **Fetcher** (`DataFetcher`). Each yfinance answer is a value:
  - sector selection, market-cap ranking and the fallback list;
  - the price / previous-close fallback chain;
  - the 90-row history cut;
  - the Yahoo cross-check score.
- **Start-up and loop wiring** (`Config`, `Monitor`):
  - `${NAME}` / `$NAME` expansion of the configuration;
  - the database connect retry;
  - the job interval;
  - the list of stock updates.

**Shared vocabulary** (`Common`, `Records`, `Sorting`, `Text`):

- `Option` stands for Python's `None`.
- `PyTake` is Python's `xs[:n]`.
- `Percent` is `(part / base) * 100`.
- Sorting is a stable descending sort by key, which is what `list.sort(key=…, reverse=True)` is.
- Text covers `str.lower` on ASCII, `in`, and `str.replace` / `str.split` / `str.join`.

**Conventions:**

- A Python exception that the code catches is modelled as its observable result, e.g. `{}`, `None`, or "not sent".
- A missing dictionary key is `None`, and "truthy" is spelt out: present and not zero.

## Model

| member | source | states |
|---|---|---|
| Database.LastIndexOn | stock/database.py:118-126 | The row a date ends up with comes from the last bar of that date in the frame; no bar of that date means no write. |
| Database.ReplaceRows | stock/database.py:118-126 | `REPLACE INTO stock_daily` of all bars: untouched (ticker, date) rows keep their contents, touched ones hold the last bar of that date. |
| Database.InsertHistoricalData | stock/database.py:97-133 | Without an engine nothing changes and the answer is False. Otherwise every bar's (ticker, date) row exists afterwards and holds the last bar of that date. No other row changes and the latest-price table is untouched. |
| Database.InsertTwiceIsInsertOnce | stock/database.py:118-126 | Re-inserting the same frame is idempotent: twice equals once, at the later write time. |
| Database.StoredQuoteSide | stock/database.py:144-145 | A bid or ask is stored only when truthy; `0` and a missing value become NULL. |
| Database.UpdateLatestPrice | stock/database.py:135-166 | Without an engine nothing changes. Otherwise exactly the ticker's latest row is replaced, with the quoted price and the truthy bid/ask; other tickers and the history are untouched. |
| Database.CurrentPrice | stock/database.py:200-224 | A price is returned exactly when there is an engine, a row for the ticker and a non-NULL price, and it is that row's price. |
| Database.UpdateThenReadPrice | stock/database.py:135-224 | Reading back after an update yields the price just written; other tickers read as before. |
| Database.CloseDates | stock/database.py:177-180 | The rows the average query considers: the ticker's dates whose close is not NULL. |
| Database.NewestFirst | stock/database.py:181 | `ORDER BY date DESC` lists every such date exactly once, strictly newest first. |
| Database.NewestFirstUnique | stock/database.py:181 | Any strictly descending listing of the dates is that order, so the query has no ties to break. |
| Database.WindowIsNewest | stock/database.py:176-183 | `LIMIT n` keeps min(n, k) dates, strictly descending, and every date left out is older than every date kept. |
| Database.WindowNested | stock/database.py:233-237 | The 7-day window is the newest part of the 30-day window, which is the newest part of the 90-day one. |
| Database.TradingDayAverage | stock/database.py:168-198 | `AVG(close)` over the window. None exactly when there is no engine, no close on record or a limit below one; otherwise the mean of the window's closes. |
| Database.AverageWithinCloses | stock/database.py:174-191 | The average lies within any bounds that hold every stored close of the ticker. |
| Database.CurrentMovingAverages | stock/database.py:226-248 | `{}` without an engine; otherwise one entry for each of 7, 30 and 90 days, each the trading-day average. |
| Database.Ascending | stock/database.py:257-259 | `DISTINCT … ORDER BY ticker` lists each ticker once, in strictly ascending order. |
| Database.TickersOf | stock/database.py:257-258 | The distinct tickers are exactly those with at least one daily row. |
| Database.AllTickers | stock/database.py:250-270 | `[]` without an engine; otherwise every ticker that has history, once each, ascending. |
| Analytics.CalculateAverages | stock/analytics.py:16-34 | One entry for each of 7, 30 and 90, each the store's average over that many trading days; all None without an engine. |
| Analytics.ComparePriceToAverages | stock/analytics.py:47-79 | An alert condition exists for a period exactly when its average is defined and strictly above the price. It holds that average, the positive gap, and the gap as a percentage of the average, and it is flagged. When a zero average would be divided by, the raised error yields `{}`. |
| Analytics.NonNegativePriceNeverDividesByZero | stock/analytics.py:57-59 | With a non-negative price the division by a zero average is unreachable. |
| Analytics.NoAveragesNoAlerts | stock/analytics.py:53-57 | Without any defined average no condition is produced, whatever the price. |
| Analytics.AnalyzeTicker | stock/analytics.py:89-114 | Without a current price: incomplete, no conditions, no `alerts_triggered` key. Otherwise: complete, with the comparison's conditions, and `alerts_triggered` is whether any exists. |
| Analytics.AnalyzeAllTickers | stock/analytics.py:81-126 | One record per requested ticker and no other, each that ticker's analysis. |
| Analytics.Tally | stock/analytics.py:139-152 | One result adds one to each counter whose criterion it meets and nothing otherwise. The criteria: analysed; analysed with alerts; analysed with alerts and a condition for the period. |
| Analytics.GenerateDailySummary | stock/analytics.py:128-159 | The total is the number of results, and every counter equals the number of results meeting its criterion, whatever the visiting order. |
| Analytics.TallyCounts | stock/analytics.py:139-152 | Tallying one more result keeps every counter exact (the loop invariant of the summary). |
| Analytics.SummaryChain | stock/analytics.py:130-152 | The counters nest: each per-period count ≤ tickers with alerts ≤ tickers analysed ≤ total tickers. |
| Analytics.PerformanceOf | stock/analytics.py:169-192 | A metric exists for exactly the defined averages, holding the change, its percentage of the average, and whether the price is above it. A zero average makes the percentage raise, which yields None. |
| Analytics.PerformanceSummary | stock/analytics.py:161-196 | None without a current price; otherwise the performance against the ticker's three averages. |
| Analytics.DefinedAverages | stock/analytics.py:210-215 | `averages_dict` keeps exactly the defined averages, with their values. |
| Analytics.TriggeredPeriods | stock/analytics.py:217-220 | The triggered periods are exactly those whose average is above the price, listed in 7/30/90 order. |
| Analytics.PriceDifferences | stock/analytics.py:222-230 | A difference entry exists exactly for the triggered periods, with the positive gap and its percentage of the average. |
| Analytics.SingleAnalysisOf | stock/analytics.py:205-243 | None exactly when a zero average would be divided by. Otherwise: the defined averages, the triggered periods in order, their differences, and `alerts_triggered` iff some period triggered. |
| Analytics.AnalyzeSingleTicker | stock/analytics.py:198-247 | None without a current price; otherwise the single analysis against the ticker's averages. |
| Analytics.AscendingPeriods | stock/analytics.py:211-220 | Filtering the periods keeps their ascending order. |
| Analytics.SingleAgreesWithComparison | stock/analytics.py:217-230 | The single-ticker analysis flags the same periods as `compare_price_to_averages`, with the same gaps. |
| Alerts.DetailFor | stock/alerts.py:88-97 | An alert line carries the period, its average, a positive gap (average − price), and that gap as a percentage of the average. |
| Alerts.CollectDetails | stock/alerts.py:85-97 | Every line belongs to a flagged condition whose average is above the price, and every such condition has its line. |
| Alerts.CollectDetailsInOrder | stock/alerts.py:85-97 | The periods of the lines are the visited periods with exactly the non-qualifying ones dropped: same order, and each qualifying period as often as it is visited. |
| Alerts.SendAlertDetails | stock/alerts.py:73-103 | A missing or zero price sends nothing. Otherwise lines are sent exactly when some condition qualifies and no zero average is divided by. They are a permutation of the collected lines, sorted by percentage, largest first. |
| Alerts.SendAlertLines | stock/alerts.py:86-103 | A line is in the message if and only if it is the line of a qualifying condition. |
| Alerts.SendAlertStable | stock/alerts.py:103 | Lines with equal percentages keep their 7/30/90 order (the sort is stable). |
| Alerts.PeriodName | stock/alerts.py:508-515 | The three table entries agree with the fallback: every period is named "<period>-Day Average". |
| Alerts.PeriodNumber | stock/alerts.py:113 | For a key with an underscore, the period number is the part before the first underscore: it is followed in the key by `_` and has no underscore itself. A key without an underscore is kept whole. |
| Alerts.AlertLineTitle | stock/alerts.py:112-117 | Each alert line is titled "7-Day Average", "30-Day Average" or "90-Day Average" after its condition key. |
| Alerts.MarketSentiment | stock/alerts.py:606-616 | The total alert count decides: bullish iff 0, neutral iff 1 to 3, bearish iff 4 to 6, very bearish iff more than 6. |
| Alerts.SentimentMonotone | stock/alerts.py:606-616 | More alerts never give a better sentiment. |
| Alerts.MarketRiskLevel | stock/alerts.py:618-626 | Risk is high iff any 90-day alert; medium iff 30-day but no 90-day; minimal iff no alert at all. |
| Alerts.OpportunityIndex | stock/alerts.py:628-636 | Opportunity is very high exactly when no window has an alert. |
| Alerts.RiskMatchesOpportunity | stock/alerts.py:606-636 | Risk and opportunity always pick the same bucket, and minimal risk coincides with a bullish sentiment. |
| Alerts.MaxPct | stock/alerts.py:563 | Python's `max` over the percentages: an upper bound that some line attains. |
| Alerts.MaxAbove | stock/alerts.py:582-590 | The largest percentage exceeds a threshold exactly when some line does. |
| Alerts.GetAlertLevel | stock/alerts.py:578-590 | No lines: no alerts. Otherwise the level is high, medium, low or minimal exactly as some line exceeds 15%, 10% or 5%, or none exceeds 5%. |
| Alerts.GetVolatilityLevel | stock/alerts.py:559-569 | The empty list has its own label; otherwise high, medium or low exactly as some line exceeds 10%, 5%, or none exceeds 5%. |
| Alerts.HighAlertIsHighVolatility | stock/alerts.py:559-590 | A high alert level always comes with high volatility. |
| Alerts.TrendAnalysis | stock/alerts.py:547-557 | Unavailable iff one of the three averages is missing. Otherwise: strong downtrend iff price < 7-day < 30-day < 90-day; short-term weakness iff price < 7-day < 30-day and the 90-day is not above the 30-day; minor weakness iff price < 7-day and the 30-day is not above the 7-day; "above all" iff the price is not below the 7-day. |
| Alerts.UpCountOfSuffix | stock/alerts.py:446 | The up count is the number of updates above their previous price by more than 0.01. |
| Alerts.DownCountOfSuffix | stock/alerts.py:447 | The down count is the number of updates below their previous price by more than 0.01. |
| Alerts.UpDownDisjoint | stock/alerts.py:446-448 | No update is both up and down, so the flat count is never negative. |
| Alerts.MarketSummary | stock/alerts.py:445-448 | Counts exist iff every update has a previous price (a missing one raises, and the update is not sent). Up and down are the numbers of updates moving up or down by more than 0.01, and up + down + flat is the number of updates. |
| Alerts.ChangesInOrder | stock/alerts.py:476-477 | The changes are the (ticker, absolute move) pairs of exactly the updates with a truthy previous price, in update order: an increasing map from changes to updates that reaches every such update. |
| Alerts.TopMover | stock/alerts.py:479-481 | The top mover is one of the changes, and no change is larger. |
| Alerts.RealTimeInsights | stock/alerts.py:470-506 | An empty list gives "no stock data". A missing previous price raises. Otherwise: a top mover iff there is a change; bullish/bearish iff strictly more rising/falling updates; a volatility line iff at least two changes. |
| Alerts.TopMoverIsFirstLargest | stock/alerts.py:480-481 | On ties the top mover is the first change of largest size, because the sort is stable. |
| MarketHours.UtcOffset | stock/alerts.py:522-528 | The offset added to UTC is always +1 or +2 hours. |
| MarketHours.SummerWindow | stock/alerts.py:522-528 | +2 holds exactly from 31 March 02:00 through 31 October 03:00:00.000000 UTC, inclusive. |
| MarketHours.LocalTimeOfDay | stock/alerts.py:530 | The local time of day is within one day; it wraps at midnight. |
| MarketHours.IsMarketOpen | stock/alerts.py:517-539 | Open exactly when the local time is between 09:00 and 17:30, both included. |
| MarketHours.SessionInUtc | stock/alerts.py:525-535 | In UTC the session is 07:00–15:30 under +2 and 08:00–16:30 under +1, both ends included. |
| MarketHours.Examples | stock/alerts.py:517-539 | Mid-June noon UTC is summer time and open; 16:00 UTC is closed in June and open in January. |
| Retry.Schedule | stock/data_fetcher.py:152-153 | The k-th wait is `backoff * 2**k`. |
| Retry.Run | stock/data_fetcher.py:109-158 | Attempts stop at the first return, whose value is the result. Every earlier attempt raised. After the last failed attempt the answer is None, with no further sleep. The sleeps are the doubling schedule, one per failed attempt before the last. |
| Retry.TotalWait | stock/data_fetcher.py:152-153 | n waits add up to `backoff * (2**n − 1)`. |
| Sorting.SortDesc | stock/alerts.py:103 | `sort(key, reverse=True)` returns a permutation of its input, ordered by key, largest first. |
| Sorting.SortDescStable | stock/data_fetcher.py:98 | The descending sort is stable: elements with equal keys keep their input order. |
| Sorting.SortDescHead | stock/alerts.py:480-481 | The head of the sorted list is the first element of largest key. |
| Text.Lower | stock/data_fetcher.py:58 | ASCII letters are lowered one for one and every other character is kept, so the length is kept; this agrees with `str.lower` on the ASCII text the keyword test uses. |
| Text.Contains | stock/data_fetcher.py:59 | `keyword in text` holds exactly when the keyword occurs at some position. |
| Text.SplitJoin | stock/alerts.py:113 | Joining the pieces of `split(sep)` with `sep` gives back the string. |
| Text.ReplaceIsJoinOfSplit | stock/main.py:90 | `s.replace(p, r)` equals splitting at `p` and joining with `r`. |
| Text.SplitPiecesFree | stock/alerts.py:113 | No piece of `split(sep)` contains `sep`. |
| Text.SplitHeadThenPattern | stock/alerts.py:113 | When `sep` occurs, the first piece of `split(sep)` is followed in the string by `sep`. |
| Text.StrLessTransitive | stock/database.py:259 | The ticker order is transitive. |
| Text.StrLessTotal | stock/database.py:259 | The ticker order is total. |
| DataFetcher.Select | stock/data_fetcher.py:52-73 | The kept tickers keep their order, and a ticker is kept iff its lookup succeeded and the keep rule accepts it. |
| DataFetcher.AutomotiveSectorStocks | stock/data_fetcher.py:42-77 | Exactly the known automotive tickers whose sector, else industry, mentions a keyword, or that have neither field. They come in the known list's order, and a raising lookup drops its ticker. |
| DataFetcher.SectorDecides | stock/data_fetcher.py:57-64 | When a sector is present the industry is never consulted. |
| DataFetcher.CapOf | stock/data_fetcher.py:88-96 | A missing or unreadable market cap ranks as 0. |
| DataFetcher.Ranked | stock/data_fetcher.py:83-99 | The ranking is a permutation of the tickers with non-increasing market caps. |
| DataFetcher.RankByMarketCap | stock/data_fetcher.py:79-106 | The first `count` of the ranking, drawn from the input tickers. |
| DataFetcher.RankingStable | stock/data_fetcher.py:98 | Tickers with equal caps keep their input order. |
| DataFetcher.TopStocks | stock/data_fetcher.py:27-35 | An empty selection falls back to the fallback list cut to `count`; otherwise the ranked selection cut to `count`. |
| DataFetcher.TopAutomotiveStocks | stock/data_fetcher.py:23-40 | Every ticker returned is one of the ten known automotive tickers. With no sector match, the first `count` known tickers; otherwise the matches ranked by market cap through a second, separate lookup and cut to `count`. |
| DataFetcher.ChoosePrice | stock/data_fetcher.py:247-295 | The last live close when there is one, else a truthy regular-market price, else a truthy previous close. None iff all three are missing. |
| DataFetcher.ChoosePreviousClose | stock/data_fetcher.py:255-309 | The second-to-last live close when there are two, else a truthy `previousClose`, else the price when the two-day history raised, else that history's second-to-last close. None iff the history has fewer than two rows. |
| DataFetcher.Quote | stock/data_fetcher.py:312-331 | Price and previous close as chosen. Bid, ask and market cap come from `info`. The live volume wins over the info volume. The state is `info`'s or "unknown", open iff "REGULAR". The timestamp is the clock. |
| DataFetcher.PriceAttempt | stock/data_fetcher.py:238-336 | As written: an empty info returns None. An attempt raises iff the info read raises, or a price is found but no previous close, because the log line formats `None`. A returned quote is the full dictionary of lines 312-331 built around the chosen price and previous close: bid, ask and market cap from info, the live volume preferred, the state defaulting to "unknown", open iff "REGULAR", and the clock. |
| DataFetcher.PriceAttemptFixed | stock/data_fetcher.py:238-336 | Corrected: raises iff the info read raises; otherwise returns a quote iff info and a price exist, with the chosen previous close, possibly None, and the quote's other fields are those of lines 312-331, as for the as-written attempt. |
| DataFetcher.AttemptsAgreeWithPreviousClose | stock/data_fetcher.py:297-309 | The two attempts differ only when no previous close is found. |
| DataFetcher.MissingPreviousCloseRaises | stock/data_fetcher.py:334 | One live bar, no `previousClose` and a one-row history make the attempt raise as written, while the corrected one returns the price. |
| DataFetcher.FetchCurrentPriceAsWritten | stock/data_fetcher.py:238-346 | Attempts run in turn. Every attempt before the last one made raised. A non-raising attempt's result is returned. If the last one made raised, it was the final allowed attempt and None is returned. One doubling back-off sleep follows each raising attempt except the last. |
| DataFetcher.FetchCurrentPrice | stock/data_fetcher.py:238-346 | With the corrected attempt, only a raising info read is retried. The first attempt whose read does not raise decides the answer, after one doubling back-off sleep per earlier attempt. If none succeeds, None comes after the full schedule. |
| DataFetcher.KeepHistory | stock/data_fetcher.py:123-148 | An empty frame or a missing basic column gives None. Otherwise the last min(n, 90) rows in order, with `Adj Close` copied from `Close` when the column is absent. |
| DataFetcher.HistoryAttempt | stock/data_fetcher.py:110-151 | Only a raising download is retried; a frame ends the loop with its kept rows or None. |
| DataFetcher.FetchHistoricalData | stock/data_fetcher.py:108-158 | Downloads are tried in turn. The first one that does not raise decides the rows, at most 90. If all raise, None. One doubling back-off sleep follows each raising download except the last. |
| DataFetcher.CountTrue | stock/data_fetcher.py:208-210 | The number of passed checks; it equals the number of checks iff all pass. |
| DataFetcher.MatchChecks | stock/data_fetcher.py:187-205 | A check is made exactly for each field both sides have truthy, in order price, previous close, volume. Each made check passes iff the difference is under 0.01, 0.01 and 1000 respectively. The market-state check is always made, always last, and passes iff the states are equal. |
| DataFetcher.MatchSummary | stock/data_fetcher.py:208-210 | `overall_match` iff every check passes; `match_percentage` is passed/total × 100, and 0 without checks. |
| DataFetcher.PerfectIsHundred | stock/data_fetcher.py:208-212 | A perfect match is exactly a 100% score. |
| Config.Scan | stock/main.py:85 | `re.findall` of the placeholder pattern: every match captures a non-empty name. |
| Config.ScanCovers | stock/main.py:85 | The scan accounts for every character of the string exactly once. |
| Config.NoDollarNoMatch | stock/main.py:85 | A string without `$` has no placeholder. |
| Config.Names | stock/main.py:86-87 | The captured names come from the matches (the first group or the second); no match gives no name. |
| Config.SubstituteOne | stock/main.py:88-90 | An unset or empty variable changes nothing. A set one replaces every `${NAME}` and then every `$NAME` by its value. |
| Config.UnsetNamesChangeNothing | stock/main.py:86-90 | Rounds for unset or empty variables leave the string unchanged. |
| Config.ExpandStringUnchanged | stock/main.py:84-91 | As written, a string without `$`, or whose placeholders are all unset, comes back unchanged. |
| Config.PrefixNameClobbers | stock/main.py:90 | As written, with `A=x` and `AB=y`, `$A-$AB` becomes `x-xB`: the shorter name's round rewrites the longer placeholder. |
| Config.ExpandStringFixedUnset | stock/main.py:84-91 | Corrected single pass: a string none of whose placeholders is set comes back unchanged. |
| Config.ExpandStringFixedExample | stock/main.py:90 | Corrected single pass: with `A=x` and `AB=y`, `$A-$AB` becomes `x-y`, each placeholder taking its own variable's value. |
| Config.ReplaceEnvVars | stock/main.py:76-95 | The result is the document with every string leaf replaced by its single-pass expansion: mappings keep their keys in order, lists their length, and non-string leaves their value. |
| Config.ReplaceEntries | stock/main.py:80-81 | Each mapping value is replaced by its expansion, under its own key and in the same position. |
| Config.ReplaceItems | stock/main.py:82-83 | Each list item is replaced by its expansion, in the same position. |
| Config.NothingSetChangesNothing | stock/main.py:79-95 | With no variable set, the whole configuration comes back unchanged. |
| Monitor.InitializeDatabase | stock/main.py:117-154 | Start-up connection: up to five attempts with waits 2, 4, 8, 16 s. It fails exactly when all five attempts fail. Otherwise the first successful attempt decides, and start-up is ready iff the tables are created. |
| Monitor.ScheduleOfConnect | stock/main.py:128-145 | The connect delays are 2, 4, 8 and 16 seconds. |
| Monitor.MonitoringInterval | stock/main.py:201-203 | 5 minutes unless real-time monitoring is on and an interval is configured, in which case that interval. |
| Monitor.QuotedTickers | stock/main.py:283-284 | The monitored tickers with exactly the unquoted ones dropped: same order, and each quoted ticker as often as it is monitored. |
| Monitor.BuildStockUpdates | stock/main.py:282-294 | One update per quoted ticker, in ticker order, carrying its price, previous close and timestamp; every quoted ticker has its update. |
| Monitor.SummaryNeedsPreviousCloses | stock/main.py:286-291 | The real-time summary can be computed exactly when every quoted ticker has a previous close. |

## Left out

- Network, Telegram and logging:
  - Telegram sending and the three parse-mode retries of `send_alert` (stock/alerts.py:127-149);
  - all message text and emoji: labels are datatype constructors;
  - `send_daily_summary`, `_build_daily_summary_message`, `_get_key_insights`, `_get_recommendation` and `_get_support_levels`;
  - logging.
- Clocks and randomness are parameters. These are:
  - `now` / timestamps;
  - the yfinance answers (`InfoLookup`, `QuoteSource`, `Frame`);
  - the connect outcome;
  - the environment.
- Sleeping: delays are returned, not performed.
- `force_refresh_all_prices` (stock/data_fetcher.py:382-455) is not part of this model, although it is the price source of the real-time cycle (stock/main.py:276). Its rules differ from `fetch_current_price`:
  - the price is the last live close only;
  - the previous close is `info.get('previousClose', current_price)` (stock/data_fetcher.py:415), so `DataFetcher.ChoosePreviousClose` does not describe the real-time updates;
  - it makes three tries one second apart, then falls back to `fetch_current_price`.
- `fetch_all_*`, `clear_all_caching`, `_is_new_trading_day`, the scheduler and the start-up sequence are not part of this model. They loop over the modelled operations or call third-party libraries.
- Floating point: prices are exact reals, so rounding and `:.2f` formatting are not modelled. NaN cells are `None`.
- Database.AllTickers: `ORDER BY ticker` is modelled as code-point order. A case-insensitive MySQL collation would order mixed-case tickers differently.
- Database.TradingDayAverage: `AVG` is the exact mean of the window. SQL's decimal arithmetic is not modelled.
- MarketHours.IsMarketOpen: the fallback branch taken when the time-zone conversion raises is not modelled. With valid field values it cannot raise.
- Alerts.RealTimeInsights: the volatility bucket of the mean change (`SwingOf`, thresholds 2 and 1) is stated by its definition only.
- Alerts.SendAlertDetails: the condition keys are the `Period` datatype, visited in 7/30/90 order, which is the order `compare_price_to_averages` inserts them. Conditions under other keys are not modelled.
- Analytics.AnalyzeSingleTicker: the source's second None branch (`not averages`) never arises, because the averages always have three keys.
- Monitor.BuildStockUpdates: the `get('previous_close', current_price)` default never applies, because the quote always has the key. The value is taken as it is, possibly `None`.
- DataFetcher.FetchCurrentPrice: a `float(...)` conversion of a non-numeric `info` value, which would raise, is not modelled. Values arrive as numbers.
- DataFetcher.MatchChecks: the stored values (`bid`, `ask`) that are not compared are left out.
- Config.ReplaceEnvVars: YAML parsing is not modelled. Non-string scalars are opaque leaves. The expansion uses the corrected single pass (see Findings); `ExpandString` is the code as written.
- A claim that no placeholder of a set variable remains after expansion is not made, because it is false: a value may itself contain `${NAME}`.

## Findings

| source | as written | input that shows it | evidently intended | confidence | as-written member | corrected member |
|---|---|---|---|---|---|---|
| stock/data_fetcher.py:334 | The success log formats `previous_close` with `:.6f`. When no previous close was found it is `None`, so formatting raises `TypeError`, the attempt counts as failed, and after all retries the price is reported missing. | One live one-minute bar, `info` without `previousClose`, and a one-row two-day history. | Return the quote with `previous_close` set to `None`. | not executed | DataFetcher.MissingPreviousCloseRaises | DataFetcher.PriceAttemptFixed |
| stock/main.py:90 | Each captured name replaces `$NAME` across the whole string, so a name that is a prefix of a longer placeholder rewrites it too. | Environment `A=x`, `AB=y`; the string `$A-$AB` becomes `x-xB`. | Each placeholder is replaced by its own variable's value: `x-y`. | not executed | Config.PrefixNameClobbers | Config.ExpandStringFixedExample |

=== FILE: alerts.dfy ===
/** The decision logic of stock/alerts.py: which alert lines `send_alert` sends and in
    which order, the bucketing helpers behind the summary and alert messages, and the
    counts and insights of the real-time update. Message text, emoji and the Telegram
    transport are not part of the model; every label is a datatype constructor. */
module Alerts {
  import opened Common
  import opened Records
  import opened Sorting
  import Text
  import Analytics

  // ---------------------------------------------------------------------------
  // send_alert

  /** One alert line: the gap between the price and one average. */
  datatype Detail = Detail(period: Period, average: real, difference: real, percentage: real)

  /** The sort key of the alert lines. */
  function Pct(d: Detail): real {
    d.percentage
  }

  /** The condition for `p` yields a line: it is flagged and the price lies below its average. */
  predicate Qualifies(price: real, conds: map<Period, Analytics.AlertCondition>, p: Period) {
    p in conds && conds[p].alertTriggered && price < conds[p].average
  }

  /** A qualifying condition has a zero average, which the percentage divides by; Python
      raises and `send_alert` answers False. */
  predicate DividesByZero(price: real, conds: map<Period, Analytics.AlertCondition>) {
    exists p :: Qualifies(price, conds, p) && conds[p].average == 0.0
  }

  /** The line built for a qualifying condition. */
  function DetailFor(price: real, conds: map<Period, Analytics.AlertCondition>, p: Period): (d: Detail)
    requires Qualifies(price, conds, p) && conds[p].average != 0.0
    ensures d.period == p && d.average == conds[p].average
    ensures d.difference == d.average - price > 0.0
    ensures d.percentage * d.average == d.difference * 100.0
  {
    var avg := conds[p].average;
    Detail(p, avg, avg - price, Percent(avg - price, avg))
  }

  /** The periods of some lines, in order. */
  function WindowsOf(ds: seq<Detail>): (ws: seq<Period>)
    ensures |ws| == |ds| && forall i :: 0 <= i < |ds| ==> ws[i] == ds[i].period
  {
    seq(|ds|, i requires 0 <= i < |ds| => ds[i].period)
  }

  /** The lines for the periods of `ps` whose condition qualifies, in the order of `ps`. */
  function CollectDetails(price: real, ps: seq<Period>, conds: map<Period, Analytics.AlertCondition>)
    : (ds: seq<Detail>)
    requires !DividesByZero(price, conds)
    ensures forall d :: d in ds ==> d.period in ps && Qualifies(price, conds, d.period)
    ensures forall d :: d in ds ==> d == DetailFor(price, conds, d.period)
    ensures forall p :: p in ps && Qualifies(price, conds, p) ==> DetailFor(price, conds, p) in ds
  {
    if |ps| == 0 then []
    else
      var rest := CollectDetails(price, ps[1..], conds);
      assert forall p :: p in ps <==> p == ps[0] || p in ps[1..];
      if Qualifies(price, conds, ps[0]) then [DetailFor(price, conds, ps[0])] + rest else rest
  }

  /** The periods of the collected lines are `ps` with exactly the non-qualifying periods
      dropped: in the order of `ps`, each qualifying period as often as it occurs there. */
  lemma {:induction false} CollectDetailsInOrder(price: real, ps: seq<Period>, conds: map<Period, Analytics.AlertCondition>)
    requires !DividesByZero(price, conds)
    ensures FilterOf(WindowsOf(CollectDetails(price, ps, conds)), ps, p => Qualifies(price, conds, p))
  {
    if |ps| > 0 {
      CollectDetailsInOrder(price, ps[1..], conds);
      CollectStep(price, ps, conds);
      FilterCons(ps, WindowsOf(CollectDetails(price, ps, conds)),
                 WindowsOf(CollectDetails(price, ps[1..], conds)), p => Qualifies(price, conds, p));
    }
  }

  /** One step of the collection, seen through the periods alone. */
  lemma CollectStep(price: real, ps: seq<Period>, conds: map<Period, Analytics.AlertCondition>)
    requires !DividesByZero(price, conds) && |ps| > 0
    ensures WindowsOf(CollectDetails(price, ps, conds))
            == (if Qualifies(price, conds, ps[0]) then [ps[0]] else [])
               + WindowsOf(CollectDetails(price, ps[1..], conds))
  {
    var rest := CollectDetails(price, ps[1..], conds);
    if Qualifies(price, conds, ps[0]) {
      WindowsOfCons(DetailFor(price, conds, ps[0]), rest);
    }
  }

  /** The periods of a line put in front. */
  lemma WindowsOfCons(d: Detail, ds: seq<Detail>)
    ensures WindowsOf([d] + ds) == [d.period] + WindowsOf(ds)
  {
    assert forall i :: 1 <= i < |ds| + 1 ==> ([d] + ds)[i] == ds[i - 1];
  }

  /** Some period's condition qualifies. */
  predicate AnyQualifies(price: real, conds: map<Period, Analytics.AlertCondition>) {
    exists p :: Qualifies(price, conds, p)
  }

  /** The lines `send_alert` puts in the message, or None when it answers False before
      sending: a missing or zero price (`not current_price`), a zero average to divide by,
      or no qualifying condition. The conditions are visited in 7/30/90 order and the
      lines are then stably sorted by percentage, largest first. */
  function SendAlertDetails(price: Option<real>, conds: map<Period, Analytics.AlertCondition>)
    : (r: Option<seq<Detail>>)
    ensures price.None? || price == Some(0.0) ==> r.None?
    ensures price.Some? && price.value != 0.0 ==>
              (r.Some? <==> !DividesByZero(price.value, conds) && AnyQualifies(price.value, conds))
    ensures r.Some? ==> |r.value| > 0 && SortedDesc(r.value, Pct)
    ensures r.Some? ==> multiset(r.value) == multiset(CollectDetails(price.value, Periods, conds))
  {
    if price.None? || price.value == 0.0 || DividesByZero(price.value, conds) then None
    else
      var ds := CollectDetails(price.value, Periods, conds);
      PeriodsComplete();
      assert AnyQualifies(price.value, conds) ==> |ds| > 0 by {
        if AnyQualifies(price.value, conds) {
          var p :| Qualifies(price.value, conds, p);
          assert DetailFor(price.value, conds, p) in ds;
        }
      }
      assert |ds| > 0 ==> AnyQualifies(price.value, conds) by {
        if |ds| > 0 {
          assert ds[0] in ds;
        }
      }
      if |ds| == 0 then None else Some(SortDesc(ds, Pct))
  }

  /** Every line sent is the line of a qualifying condition, and every qualifying condition
      has its line. */
  lemma SendAlertLines(price: Option<real>, conds: map<Period, Analytics.AlertCondition>)
    requires SendAlertDetails(price, conds).Some?
    ensures forall d :: d in SendAlertDetails(price, conds).value <==>
              Qualifies(price.value, conds, d.period) && d == DetailFor(price.value, conds, d.period)
  {
    var ds := CollectDetails(price.value, Periods, conds);
    var r := SendAlertDetails(price, conds).value;
    PeriodsComplete();
    forall d ensures d in r <==> d in ds {
      assert d in r <==> d in multiset(r);
      assert d in ds <==> d in multiset(ds);
    }
  }

  /** Lines with equal percentages keep their 7/30/90 order. */
  lemma SendAlertStable(price: Option<real>, conds: map<Period, Analytics.AlertCondition>, v: real)
    requires SendAlertDetails(price, conds).Some?
    ensures KeyClass(SendAlertDetails(price, conds).value, Pct, v)
            == KeyClass(CollectDetails(price.value, Periods, conds), Pct, v)
  {
    SortDescStable(CollectDetails(price.value, Periods, conds), Pct, v);
  }

  // ---------------------------------------------------------------------------
  // Period names

  /** `_get_period_name`: the table entries for '7', '30' and '90' agree with the fallback. */
  function PeriodName(period: string): (r: string)
    ensures r == period + "-Day Average"
  {
    if period == "7" then "7-Day Average"
    else if period == "30" then "30-Day Average"
    else if period == "90" then "90-Day Average"
    else period + "-Day Average"
  }

  /** The digits of a period, `7`, `30` or `90`. */
  function DaysText(p: Period): string {
    match p
    case P7 => "7"
    case P30 => "30"
    case P90 => "90"
  }

  /** The key of a condition, `7_day` and so on, as `compare_price_to_averages` writes it. */
  function ConditionKey(p: Period): string {
    DaysText(p) + "_day"
  }

  /** The part of a key before its first underscore, or the whole key when it has none. */
  function PeriodNumber(key: string): (n: string)
    ensures n <= key
    ensures !Text.Contains(n, "_")
    ensures !Text.Contains(key, "_") ==> n == key
    ensures Text.Contains(key, "_") ==> n + "_" <= key
  {
    if Text.Contains(key, "_") then
      Text.SplitHeadThenPattern(key, "_");
      Text.SplitHeadIsPrefix(key, "_");
      Text.SplitPiecesFree(key, "_");
      Text.Split(key, "_")[0]
    else key
  }

  /** Each alert line is titled with the name of its window. */
  lemma AlertLineTitle(p: Period)
    ensures PeriodName(PeriodNumber(ConditionKey(p))) == DaysText(p) + "-Day Average"
  {
    var key := ConditionKey(p);
    SplitBeforeUnderscore(DaysText(p));
    assert Text.OccursAt(key, "_", |DaysText(p)|);
  }

  /** Splitting `<digits>_day` at underscores starts with the digits. */
  lemma {:induction false} SplitBeforeUnderscore(digits: string)
    requires forall i :: 0 <= i < |digits| ==> digits[i] != '_'
    ensures Text.Split(digits + "_day", "_")[0] == digits
  {
    var key := digits + "_day";
    if |digits| == 0 {
      assert key[..1] == "_";
    } else {
      assert key[0] == digits[0] != '_';
      assert key[..1] == [digits[0]] && "_" == ['_'];
      assert key[1..] == digits[1..] + "_day";
      SplitBeforeUnderscore(digits[1..]);
      assert digits == [digits[0]] + digits[1..];
    }
  }

  // ---------------------------------------------------------------------------
  // Daily summary buckets

  datatype Sentiment = Bullish | Neutral | Bearish | VeryBearish

  /** Position of a sentiment from best to worst. */
  function SentimentRank(s: Sentiment): nat {
    match s
    case Bullish => 0
    case Neutral => 1
    case Bearish => 2
    case VeryBearish => 3
  }

  /** `_get_market_sentiment`: the total number of alerts bucketed as 0, 1-3, 4-6, 7+. */
  function MarketSentiment(below7: nat, below30: nat, below90: nat): (r: Sentiment)
    ensures r == Bullish <==> below7 == below30 == below90 == 0
    ensures r == Neutral <==> 1 <= below7 + below30 + below90 <= 3
    ensures r == Bearish <==> 4 <= below7 + below30 + below90 <= 6
    ensures r == VeryBearish <==> below7 + below30 + below90 > 6
  {
    var total := below7 + below30 + below90;
    if total == 0 then Bullish
    else if total <= 3 then Neutral
    else if total <= 6 then Bearish
    else VeryBearish
  }

  /** More alerts never give a better sentiment. */
  lemma SentimentMonotone(a7: nat, a30: nat, a90: nat, b7: nat, b30: nat, b90: nat)
    requires a7 + a30 + a90 <= b7 + b30 + b90
    ensures SentimentRank(MarketSentiment(a7, a30, a90)) <= SentimentRank(MarketSentiment(b7, b30, b90))
  {
  }

  datatype Risk = HighRisk | MediumRisk | LowRisk | MinimalRisk

  /** `_get_market_risk_level`: the longest window with an alert decides, 90 before 30 before 7. */
  function MarketRiskLevel(below7: nat, below30: nat, below90: nat): (r: Risk)
    ensures r == MinimalRisk <==> below7 == below30 == below90 == 0
    ensures r == HighRisk <==> below90 > 0
    ensures r == MediumRisk <==> below90 == 0 && below30 > 0
  {
    if below90 > 0 then HighRisk
    else if below30 > 0 then MediumRisk
    else if below7 > 0 then LowRisk
    else MinimalRisk
  }

  datatype Opportunity = LowOpportunity | MediumOpportunity | HighOpportunity | VeryHighOpportunity

  /** `_get_opportunity_index`: the same priority as the risk level. */
  function OpportunityIndex(below7: nat, below30: nat, below90: nat): (r: Opportunity)
    ensures r == VeryHighOpportunity <==> below7 == below30 == below90 == 0
  {
    if below90 > 0 then LowOpportunity
    else if below30 > 0 then MediumOpportunity
    else if below7 > 0 then HighOpportunity
    else VeryHighOpportunity
  }

  function RiskRank(r: Risk): nat {
    match r
    case HighRisk => 0
    case MediumRisk => 1
    case LowRisk => 2
    case MinimalRisk => 3
  }

  function OpportunityRank(o: Opportunity): nat {
    match o
    case LowOpportunity => 0
    case MediumOpportunity => 1
    case HighOpportunity => 2
    case VeryHighOpportunity => 3
  }

  /** Risk and opportunity always pick the same bucket, and the all-clear labels of the
      three helpers coincide. */
  lemma RiskMatchesOpportunity(below7: nat, below30: nat, below90: nat)
    ensures RiskRank(MarketRiskLevel(below7, below30, below90))
            == OpportunityRank(OpportunityIndex(below7, below30, below90))
    ensures MarketRiskLevel(below7, below30, below90) == MinimalRisk
            <==> MarketSentiment(below7, below30, below90) == Bullish
  {
  }

  // ---------------------------------------------------------------------------
  // Alert message helpers

  /** Some line's percentage exceeds `x`. */
  predicate SomeAbove(ds: seq<Detail>, x: real) {
    exists i :: 0 <= i < |ds| && ds[i].percentage > x
  }

  /** The largest percentage (Python's `max`). */
  function MaxPct(ds: seq<Detail>): (m: real)
    requires |ds| > 0
    ensures forall i :: 0 <= i < |ds| ==> ds[i].percentage <= m
    ensures exists i :: 0 <= i < |ds| && ds[i].percentage == m
  {
    if |ds| == 1 then ds[0].percentage
    else
      var m := MaxPct(ds[1..]);
      assert forall i :: 1 <= i < |ds| ==> ds[i] == ds[1..][i - 1];
      if ds[0].percentage >= m then ds[0].percentage else m
  }

  /** The maximum exceeds `x` exactly when some line does. */
  lemma MaxAbove(ds: seq<Detail>, x: real)
    requires |ds| > 0
    ensures MaxPct(ds) > x <==> SomeAbove(ds, x)
  {
  }

  datatype AlertLevel = NoAlerts | HighLevel | MediumLevel | LowLevel | MinimalLevel

  /** `_get_alert_level`: strict thresholds 15, 10 and 5 on the largest percentage. */
  function GetAlertLevel(ds: seq<Detail>): (r: AlertLevel)
    ensures r == NoAlerts <==> |ds| == 0
    ensures r == HighLevel <==> SomeAbove(ds, 15.0)
    ensures r == MediumLevel <==> SomeAbove(ds, 10.0) && !SomeAbove(ds, 15.0)
    ensures r == LowLevel <==> SomeAbove(ds, 5.0) && !SomeAbove(ds, 10.0)
    ensures r == MinimalLevel <==> |ds| > 0 && !SomeAbove(ds, 5.0)
  {
    if |ds| == 0 then NoAlerts
    else
      var m := MaxPct(ds);
      MaxAbove(ds, 15.0);
      MaxAbove(ds, 10.0);
      MaxAbove(ds, 5.0);
      if m > 15.0 then HighLevel
      else if m > 10.0 then MediumLevel
      else if m > 5.0 then LowLevel
      else MinimalLevel
  }

  datatype Volatility = NoVolatilityData | HighVolatility | MediumVolatility | LowVolatility

  /** `_get_volatility_level`: strict thresholds 10 and 5 on the largest percentage; an
      empty list has its own label. */
  function GetVolatilityLevel(ds: seq<Detail>): (r: Volatility)
    ensures r == NoVolatilityData <==> |ds| == 0
    ensures r == HighVolatility <==> SomeAbove(ds, 10.0)
    ensures r == MediumVolatility <==> SomeAbove(ds, 5.0) && !SomeAbove(ds, 10.0)
    ensures r == LowVolatility <==> |ds| > 0 && !SomeAbove(ds, 5.0)
  {
    if |ds| == 0 then NoVolatilityData
    else
      var m := MaxPct(ds);
      MaxAbove(ds, 10.0);
      MaxAbove(ds, 5.0);
      if m > 10.0 then HighVolatility
      else if m > 5.0 then MediumVolatility
      else LowVolatility
  }

  /** A high alert level always comes with high volatility. */
  lemma HighAlertIsHighVolatility(ds: seq<Detail>)
    requires GetAlertLevel(ds) == HighLevel
    ensures GetVolatilityLevel(ds) == HighVolatility
  {
  }

  datatype Trend = TrendUnavailable | StrongDowntrend | ShortTermWeakness | MinorWeakness | AboveAll

  /** `_get_trend_analysis` over the averages keyed by period. */
  function TrendAnalysis(price: real, avgs: map<Period, real>): (r: Trend)
    ensures r == TrendUnavailable <==> !(P7 in avgs && P30 in avgs && P90 in avgs)
    ensures r == AboveAll <==> P7 in avgs && P30 in avgs && P90 in avgs && price >= avgs[P7]
    ensures r == StrongDowntrend <==>
      P7 in avgs && P30 in avgs && P90 in avgs && price < avgs[P7] < avgs[P30] < avgs[P90]
    ensures r == ShortTermWeakness <==>
      P7 in avgs && P30 in avgs && P90 in avgs && price < avgs[P7] < avgs[P30] && avgs[P90] <= avgs[P30]
    ensures r == MinorWeakness <==>
      P7 in avgs && P30 in avgs && P90 in avgs && price < avgs[P7] && avgs[P30] <= avgs[P7]
    ensures r == StrongDowntrend ==> price < avgs[P7] && price < avgs[P30] && price < avgs[P90]
  {
    if P7 in avgs && P30 in avgs && P90 in avgs then
      var a7, a30, a90 := avgs[P7], avgs[P30], avgs[P90];
      if price < a7 < a30 < a90 then StrongDowntrend
      else if price < a7 < a30 then ShortTermWeakness
      else if price < a7 then MinorWeakness
      else AboveAll
    else TrendUnavailable
  }

  // ---------------------------------------------------------------------------
  // Real-time update

  /** Every update carries a previous price; comparing with a missing one raises in the
      source, and the real-time update is then not sent. */
  predicate AllPrevious(us: seq<StockUpdate>) {
    forall i :: 0 <= i < |us| ==> us[i].previousPrice.Some?
  }

  /** Up by more than the 0.01 tolerance. */
  predicate IsUp(u: StockUpdate)
    requires u.previousPrice.Some?
  {
    u.currentPrice > u.previousPrice.value + 0.01
  }

  /** Down by more than the 0.01 tolerance. */
  predicate IsDown(u: StockUpdate)
    requires u.previousPrice.Some?
  {
    u.currentPrice < u.previousPrice.value - 0.01
  }

  /** How many updates move up. */
  function CountUp(us: seq<StockUpdate>): (n: nat)
    requires AllPrevious(us)
    ensures n <= |us|
  {
    if |us| == 0 then 0 else (if IsUp(us[0]) then 1 else 0) + CountUp(us[1..])
  }

  /** How many updates move down. */
  function CountDown(us: seq<StockUpdate>): (n: nat)
    requires AllPrevious(us)
    ensures n <= |us|
  {
    if |us| == 0 then 0 else (if IsDown(us[0]) then 1 else 0) + CountDown(us[1..])
  }

  /** No update is both up and down, so the two counts never exceed the total. */
  lemma {:induction false} UpDownDisjoint(us: seq<StockUpdate>)
    requires AllPrevious(us)
    ensures CountUp(us) + CountDown(us) <= |us|
  {
    if |us| > 0 {
      UpDownDisjoint(us[1..]);
      assert !(IsUp(us[0]) && IsDown(us[0]));
    }
  }

  /** The indices of the updates that move up. */
  function UpIndices(us: seq<StockUpdate>, from: nat): set<int>
    requires AllPrevious(us)
  {
    set i | from <= i < |us| && IsUp(us[i])
  }

  /** The indices of the updates that move down. */
  function DownIndices(us: seq<StockUpdate>, from: nat): set<int>
    requires AllPrevious(us)
  {
    set i | from <= i < |us| && IsDown(us[i])
  }

  /** The recursive up count of a suffix is the number of its updates that move up. */
  lemma {:induction false} UpCountOfSuffix(us: seq<StockUpdate>, k: nat)
    requires AllPrevious(us) && k <= |us|
    ensures AllPrevious(us[k..])
    ensures CountUp(us[k..]) == |UpIndices(us, k)|
    decreases |us| - k
  {
    assert forall i :: 0 <= i < |us[k..]| ==> us[k..][i] == us[i + k];
    if k == |us| {
      assert UpIndices(us, k) == {};
    } else {
      UpCountOfSuffix(us, k + 1);
      assert us[k..][1..] == us[k + 1..];
      assert k !in UpIndices(us, k + 1);
      if IsUp(us[k]) {
        assert UpIndices(us, k) == UpIndices(us, k + 1) + {k};
      } else {
        assert UpIndices(us, k) == UpIndices(us, k + 1);
      }
    }
  }

  /** The recursive down count of a suffix is the number of its updates that move down. */
  lemma {:induction false} DownCountOfSuffix(us: seq<StockUpdate>, k: nat)
    requires AllPrevious(us) && k <= |us|
    ensures AllPrevious(us[k..])
    ensures CountDown(us[k..]) == |DownIndices(us, k)|
    decreases |us| - k
  {
    assert forall i :: 0 <= i < |us[k..]| ==> us[k..][i] == us[i + k];
    if k == |us| {
      assert DownIndices(us, k) == {};
    } else {
      DownCountOfSuffix(us, k + 1);
      assert us[k..][1..] == us[k + 1..];
      assert k !in DownIndices(us, k + 1);
      if IsDown(us[k]) {
        assert DownIndices(us, k) == DownIndices(us, k + 1) + {k};
      } else {
        assert DownIndices(us, k) == DownIndices(us, k + 1);
      }
    }
  }

  /** The up, down and flat counts of the real-time summary. */
  datatype Movement = Movement(up: nat, down: nat, flat: nat)

  /** The market summary counts of `send_real_time_update`; None when a previous price is
      missing (the update is then not sent). */
  function MarketSummary(us: seq<StockUpdate>): (r: Option<Movement>)
    ensures r.Some? <==> AllPrevious(us)
    ensures r.Some? ==> r.value.up == |UpIndices(us, 0)| && r.value.down == |DownIndices(us, 0)|
    ensures r.Some? ==> r.value.up + r.value.down + r.value.flat == |us|
  {
    if !AllPrevious(us) then None
    else
      UpCountOfSuffix(us, 0);
      DownCountOfSuffix(us, 0);
      assert us[0..] == us;
      UpDownDisjoint(us);
      Some(Movement(CountUp(us), CountDown(us), |us| - CountUp(us) - CountDown(us)))
  }

  /** A (ticker, size of move) pair of `_get_real_time_insights`. */
  type Change = (Ticker, real)

  /** The sort key of the changes. */
  function Size(c: Change): real {
    c.1
  }

  /** The changes of the updates whose previous price is truthy (present and not zero), in
      order; the others are skipped. */
  function Changes(us: seq<StockUpdate>): (cs: seq<Change>)
    ensures |cs| <= |us|
    ensures forall c :: c in cs ==> c.1 >= 0.0
  {
    if |us| == 0 then []
    else if HasMove(us[0]) then [MoveOf(us[0])] + Changes(us[1..])
    else Changes(us[1..])
  }

  /** The previous price is truthy, so the update has a change. */
  predicate HasMove(u: StockUpdate) {
    u.previousPrice.Some? && u.previousPrice.value != 0.0
  }

  /** The ticker and the absolute price move of an update with a previous price. */
  function MoveOf(u: StockUpdate): (c: Change)
    requires HasMove(u)
    ensures c.0 == u.ticker
    ensures c.1 >= 0.0 && (c.1 == u.currentPrice - u.previousPrice.value || c.1 == u.previousPrice.value - u.currentPrice)
  {
    (u.ticker, Abs(u.currentPrice - u.previousPrice.value))
  }

  /** `f` maps each change in `cs` to the update it comes from, in increasing order, and
      reaches every update with a truthy previous price. */
  predicate IndexesMoves(us: seq<StockUpdate>, cs: seq<Change>, f: seq<nat>) {
    && |f| == |cs|
    && (forall j :: 0 <= j < |f| ==> f[j] < |us| && HasMove(us[f[j]]) && cs[j] == MoveOf(us[f[j]]))
    && Increasing(f)
    && (forall i :: 0 <= i < |us| && HasMove(us[i]) ==> i in f)
  }

  /** Strictly increasing indices. */
  predicate Increasing(f: seq<nat>) {
    forall j, k :: 0 <= j < k < |f| ==> f[j] < f[k]
  }

  /** Putting 0 in front of positive increasing indices keeps them increasing. */
  lemma ZeroBeforeIncreasing(sh: seq<nat>)
    requires Increasing(sh)
    requires forall j :: 0 <= j < |sh| ==> sh[j] > 0
    ensures Increasing([0] + sh)
  {
    var f := [0] + sh;
    forall j, k | 0 <= j < k < |f| ensures f[j] < f[k] {
      assert f[k] == sh[k - 1];
      if j > 0 {
        assert f[j] == sh[j - 1];
      }
    }
  }

  /** The changes are the moves of exactly the updates with a truthy previous price, in the
      order of the updates. */
  lemma {:induction false} ChangesInOrder(us: seq<StockUpdate>) returns (f: seq<nat>)
    ensures IndexesMoves(us, Changes(us), f)
    decreases |us|
  {
    if |us| == 0 {
      f := [];
    } else {
      var g := ChangesInOrder(us[1..]);
      if HasMove(us[0]) {
        f := [0] + ShiftIndices(g);
        IndexesMovesCons(us, Changes(us[1..]), g);
      } else {
        f := ShiftIndices(g);
        IndexesMovesSkip(us, Changes(us[1..]), g);
      }
    }
  }

  /** The tail's indices moved one on point at the same changes within the whole sequence. */
  lemma ShiftedPointsAtMoves(us: seq<StockUpdate>, rest: seq<Change>, g: seq<nat>)
    requires |us| > 0
    requires IndexesMoves(us[1..], rest, g)
    ensures |ShiftIndices(g)| == |rest|
    ensures forall j :: 0 <= j < |ShiftIndices(g)| ==>
      ShiftIndices(g)[j] < |us| && HasMove(us[ShiftIndices(g)[j]]) && rest[j] == MoveOf(us[ShiftIndices(g)[j]])
  {
    var sh := ShiftIndices(g);
    forall j | 0 <= j < |sh|
      ensures sh[j] < |us| && HasMove(us[sh[j]]) && rest[j] == MoveOf(us[sh[j]])
    {
      assert us[1..][g[j]] == us[sh[j]];
    }
  }

  /** Moving increasing indices one on keeps them increasing and positive. */
  lemma ShiftedIncreasing(g: seq<nat>)
    requires Increasing(g)
    ensures Increasing(ShiftIndices(g))
    ensures forall j :: 0 <= j < |ShiftIndices(g)| ==> ShiftIndices(g)[j] > 0
  {
  }

  /** The tail's indices moved one on reach every update after the first that has a move. */
  lemma ShiftedReachesMoves(us: seq<StockUpdate>, rest: seq<Change>, g: seq<nat>)
    requires |us| > 0
    requires IndexesMoves(us[1..], rest, g)
    ensures forall i :: 1 <= i < |us| && HasMove(us[i]) ==> i in ShiftIndices(g)
  {
    var sh := ShiftIndices(g);
    forall i | 1 <= i < |us| && HasMove(us[i]) ensures i in sh {
      assert us[1..][i - 1] == us[i];
      assert i - 1 in g;
      var j :| 0 <= j < |g| && g[j] == i - 1;
      assert sh[j] == i;
    }
  }

  /** The tail's indices moved one on. */
  lemma ShiftedIndexesMoves(us: seq<StockUpdate>, rest: seq<Change>, g: seq<nat>)
    requires |us| > 0
    requires IndexesMoves(us[1..], rest, g)
    ensures |ShiftIndices(g)| == |rest|
    ensures forall j :: 0 <= j < |ShiftIndices(g)| ==>
      ShiftIndices(g)[j] < |us| && HasMove(us[ShiftIndices(g)[j]]) && rest[j] == MoveOf(us[ShiftIndices(g)[j]])
    ensures Increasing(ShiftIndices(g))
    ensures forall j :: 0 <= j < |ShiftIndices(g)| ==> ShiftIndices(g)[j] > 0
    ensures forall i :: 1 <= i < |us| && HasMove(us[i]) ==> i in ShiftIndices(g)
  {
    ShiftedPointsAtMoves(us, rest, g);
    ShiftedIncreasing(g);
    ShiftedReachesMoves(us, rest, g);
  }

  /** An update without a move adds no change, and the tail's indices move one on. */
  lemma IndexesMovesSkip(us: seq<StockUpdate>, rest: seq<Change>, g: seq<nat>)
    requires |us| > 0 && !HasMove(us[0])
    requires IndexesMoves(us[1..], rest, g)
    ensures IndexesMoves(us, rest, ShiftIndices(g))
  {
    ShiftedIndexesMoves(us, rest, g);
  }

  /** An update with a move adds its change in front, at index 0. */
  lemma IndexesMovesCons(us: seq<StockUpdate>, rest: seq<Change>, g: seq<nat>)
    requires |us| > 0 && HasMove(us[0])
    requires IndexesMoves(us[1..], rest, g)
    ensures IndexesMoves(us, [MoveOf(us[0])] + rest, [0] + ShiftIndices(g))
  {
    ShiftedIndexesMoves(us, rest, g);
    var sh := ShiftIndices(g);
    var f := [0] + sh;
    var cs := [MoveOf(us[0])] + rest;
    forall j | 0 <= j < |f|
      ensures f[j] < |us| && HasMove(us[f[j]]) && cs[j] == MoveOf(us[f[j]])
    {
      if j > 0 {
        assert f[j] == sh[j - 1] && cs[j] == rest[j - 1];
      }
    }
    ZeroBeforeIncreasing(sh);
    forall i | 0 <= i < |us| && HasMove(us[i]) ensures i in f {
      if i > 0 {
        assert i in sh;
        var j :| 0 <= j < |sh| && sh[j] == i;
        assert f[j + 1] == i;
      }
    }
  }

  /** Every index one further on, keeping the order and the membership. */
  function ShiftIndices(g: seq<nat>): (sh: seq<nat>)
    ensures |sh| == |g|
    ensures forall j :: 0 <= j < |g| ==> sh[j] == g[j] + 1
  {
    if |g| == 0 then [] else [g[0] + 1] + ShiftIndices(g[1..])
  }

  /** Strict up and down counts, without tolerance, for the sentiment line. */
  function CountRising(us: seq<StockUpdate>): nat
    requires AllPrevious(us)
  {
    if |us| == 0 then 0
    else (if us[0].currentPrice > us[0].previousPrice.value then 1 else 0) + CountRising(us[1..])
  }

  function CountFalling(us: seq<StockUpdate>): nat
    requires AllPrevious(us)
  {
    if |us| == 0 then 0
    else (if us[0].currentPrice < us[0].previousPrice.value then 1 else 0) + CountFalling(us[1..])
  }

  datatype Mood = BullishMomentum | BearishPressure | MixedSignals

  datatype Swing = HighSwing | MediumSwing | LowSwing

  /** What `_get_real_time_insights` reports. */
  datatype Insights =
    | NoStockData
    | Insights(topMover: Option<Change>, mood: Mood, swing: Option<Swing>)

  /** Mean size of the changes, bucketed by strict thresholds 2 and 1. */
  function SwingOf(cs: seq<Change>): (r: Swing)
    requires |cs| > 0
  {
    var avg := Mean(Sizes(cs));
    if avg > 2.0 then HighSwing else if avg > 1.0 then MediumSwing else LowSwing
  }

  function Sizes(cs: seq<Change>): (xs: seq<real>)
    ensures |xs| == |cs|
    ensures forall i :: 0 <= i < |cs| ==> xs[i] == cs[i].1
  {
    seq(|cs|, i requires 0 <= i < |cs| => cs[i].1)
  }

  /** The head of the changes sorted by size, largest first. */
  function TopMover(cs: seq<Change>): (c: Change)
    requires |cs| > 0
    ensures c in cs
    ensures forall d :: d in cs ==> d.1 <= c.1
  {
    var r := SortDesc(cs, Size);
    assert r[0] in multiset(cs);
    assert forall d :: d in cs ==> d.1 <= r[0].1 by {
      forall d | d in cs ensures d.1 <= r[0].1 {
        assert d in multiset(r);
        var i :| 0 <= i < |r| && r[i] == d;
        assert Size(r[0]) >= Size(r[i]);
      }
    }
    r[0]
  }

  /** `_get_real_time_insights`: nothing for an empty list; otherwise the largest move (the
      first such update on ties), the up/down balance, and, with at least two moves, the
      swing size. None when a previous price is missing, which raises in the source. */
  function RealTimeInsights(us: seq<StockUpdate>): (r: Option<Insights>)
    ensures |us| == 0 ==> r == Some(NoStockData)
    ensures |us| > 0 ==> (r.Some? <==> AllPrevious(us))
    ensures r.Some? && r.value.Insights? ==> (r.value.topMover.Some? <==> |Changes(us)| > 0)
    ensures r.Some? && r.value.Insights? && r.value.topMover.Some? ==>
              r.value.topMover.value in Changes(us)
              && forall c :: c in Changes(us) ==> c.1 <= r.value.topMover.value.1
    ensures r.Some? && r.value.Insights? ==>
              (r.value.mood == BullishMomentum <==> CountRising(us) > CountFalling(us))
              && (r.value.mood == BearishPressure <==> CountFalling(us) > CountRising(us))
    ensures r.Some? && r.value.Insights? ==> (r.value.swing.Some? <==> |Changes(us)| > 1)
  {
    if |us| == 0 then Some(NoStockData)
    else if !AllPrevious(us) then None
    else
      var cs := Changes(us);
      var top: Option<Change> := if |cs| > 0 then Some(TopMover(cs)) else None;
      var up, down := CountRising(us), CountFalling(us);
      var mood := if up > down then BullishMomentum else if down > up then BearishPressure else MixedSignals;
      Some(Insights(top, mood, if |cs| > 1 then Some(SwingOf(cs)) else None))
  }

  /** The top mover is the first change of largest size. */
  lemma TopMoverIsFirstLargest(us: seq<StockUpdate>)
    requires |us| > 0 && AllPrevious(us) && |Changes(us)| > 0
    ensures exists k :: 0 <= k < |Changes(us)|
              && RealTimeInsights(us).value.topMover == Some(Changes(us)[k])
              && (forall j :: 0 <= j < |Changes(us)| ==> Changes(us)[j].1 <= Changes(us)[k].1)
              && (forall j :: 0 <= j < k ==> Changes(us)[j].1 < Changes(us)[k].1)
  {
    var k := SortDescHead(Changes(us), Size);
    assert TopMover(Changes(us)) == SortDesc(Changes(us), Size)[0];
  }
}

=== FILE: analytics.dfy ===
/** The threshold evaluator of stock/analytics.py: the current price against the 7, 30
    and 90 trading-day averages, the per-ticker analysis records built from it, and the
    daily summary counters. The database is the store of module Database. */
module Analytics {
  import opened Common
  import opened Records
  import Database

  /** One optional average per period (`average_7` ... in the source). */
  type Averages = map<Period, Option<real>>

  /** The defined average for `p`, if `avgs` has one. */
  predicate HasAverage(avgs: Averages, p: Period) {
    p in avgs && avgs[p].Some?
  }

  /** The price is strictly below the defined average for `p`: the alert condition. */
  predicate Below(price: real, avgs: Averages, p: Period) {
    HasAverage(avgs, p) && price < avgs[p].value
  }

  /** `calculate_averages_for_ticker`: one entry per period, each the store's average
      over that many trading days (None without an engine or without closes). */
  function CalculateAverages(s: Database.Store, t: Ticker): (r: Averages)
    ensures r.Keys == {P7, P30, P90}
    ensures forall p :: p in r ==> r[p] == Database.TradingDayAverage(s, t, p.Days())
    ensures !s.connected ==> forall p :: p in r ==> r[p].None?
  {
    map p: Period | p in {P7, P30, P90} :: Database.TradingDayAverage(s, t, p.Days())
  }

  /** One entry of `compare_price_to_averages`. */
  datatype AlertCondition = AlertCondition(
    average: real,
    absoluteDifference: real,
    percentDifference: real,
    alertTriggered: bool)

  /** A division by a zero average would be reached: the average is `0` and the price lies
      below it. Python raises `ZeroDivisionError`, which the source catches. */
  predicate ZeroAverageBelow(price: real, avgs: Averages) {
    exists p :: Below(price, avgs, p) && avgs[p].value == 0.0
  }

  /** `compare_price_to_averages`: an entry for exactly the periods whose average is defined
      and above the price, holding the gap in money and in percent of the average; `{}` when
      a zero average would be divided by. */
  function ComparePriceToAverages(price: real, avgs: Averages): (r: map<Period, AlertCondition>)
    ensures ZeroAverageBelow(price, avgs) ==> r == map[]
    ensures !ZeroAverageBelow(price, avgs) ==> forall p :: p in r <==> Below(price, avgs, p)
    ensures forall p :: p in r ==> Below(price, avgs, p) && r[p].average == avgs[p].value
    ensures forall p :: p in r ==> r[p].absoluteDifference == r[p].average - price > 0.0
    ensures forall p :: p in r ==> r[p].percentDifference * r[p].average == r[p].absoluteDifference * 100.0
    ensures forall p :: p in r ==> r[p].alertTriggered
  {
    if ZeroAverageBelow(price, avgs) then map[]
    else
      map p | p in avgs && Below(price, avgs, p) ::
        var avg := avgs[p].value;
        AlertCondition(avg, avg - price, Percent(avg - price, avg), true)
  }

  /** With a non-negative price no zero average is ever divided by. */
  lemma NonNegativePriceNeverDividesByZero(price: real, avgs: Averages)
    requires price >= 0.0
    ensures !ZeroAverageBelow(price, avgs)
  {
  }

  /** Without any defined average nothing is flagged, whatever the price. */
  lemma NoAveragesNoAlerts(price: real, avgs: Averages)
    requires forall p :: p in avgs ==> avgs[p].None?
    ensures ComparePriceToAverages(price, avgs) == map[]
  {
  }

  /** The record `analyze_all_tickers` keeps per ticker. `alertsTriggered` is None when the
      source leaves the key out (no current price). */
  datatype TickerAnalysis = TickerAnalysis(
    currentPrice: Option<real>,
    averages: Averages,
    alertConditions: map<Period, AlertCondition>,
    analysisComplete: bool,
    alertsTriggered: Option<bool>)

  /** The analysis of one ticker inside `analyze_all_tickers`. */
  function AnalyzeTicker(s: Database.Store, t: Ticker): (a: TickerAnalysis)
    ensures a.averages == CalculateAverages(s, t)
    ensures a.currentPrice == Database.CurrentPrice(s, t)
    ensures a.currentPrice.None? ==> !a.analysisComplete && a.alertConditions == map[] && a.alertsTriggered.None?
    ensures a.currentPrice.Some? ==> a.analysisComplete
    ensures a.currentPrice.Some? ==>
              a.alertConditions == ComparePriceToAverages(a.currentPrice.value, a.averages)
    ensures a.currentPrice.Some? ==> a.alertsTriggered == Some(a.alertConditions != map[])
  {
    var avgs := CalculateAverages(s, t);
    match Database.CurrentPrice(s, t)
    case None => TickerAnalysis(None, avgs, map[], false, None)
    case Some(price) =>
      var conds := ComparePriceToAverages(price, avgs);
      TickerAnalysis(Some(price), avgs, conds, true, Some(|conds| > 0))
  }

  /** `analyze_all_tickers`: one analysis per listed ticker (a repeated ticker is analysed
      again with the same outcome). */
  function AnalyzeAllTickers(s: Database.Store, tickers: seq<Ticker>): (r: map<Ticker, TickerAnalysis>)
    ensures forall t :: t in r <==> t in tickers
    ensures forall t :: t in r ==> r[t] == AnalyzeTicker(s, t)
  {
    map t | t in tickers :: AnalyzeTicker(s, t)
  }

  /** The counters of `generate_daily_summary`. */
  datatype Summary = Summary(
    totalTickers: nat,
    tickersWithAlerts: nat,
    alerts7: nat,
    alerts30: nat,
    alerts90: nat,
    tickersAnalyzed: nat)

  /** What a counter of the summary counts. */
  datatype Criterion = Analyzed | WithAlerts | AlertFor(p: Period)

  /** Whether one result counts for a criterion: analysed (`analysis_complete`, False when
      missing); analysed with an alert (`alerts_triggered`, False when missing); and that,
      with a condition for the period. */
  predicate Meets(a: TickerAnalysis, c: Criterion) {
    match c
    case Analyzed => a.analysisComplete
    case WithAlerts => a.analysisComplete && a.alertsTriggered.GetOr(false)
    case AlertFor(p) => a.analysisComplete && a.alertsTriggered.GetOr(false) && p in a.alertConditions
  }

  /** The tickers among `ks` that have a result, and whose result meets `c`. */
  function Matching(results: map<Ticker, TickerAnalysis>, ks: set<Ticker>, c: Criterion): (m: set<Ticker>)
    ensures m <= ks
    ensures forall t :: t in m <==> t in ks && t in results && Meets(results[t], c)
  {
    set t | t in ks && t in results && Meets(results[t], c)
  }

  /** How many of the tickers among `ks` meet `c`. */
  function CountOf(results: map<Ticker, TickerAnalysis>, ks: set<Ticker>, c: Criterion): nat {
    |Matching(results, ks, c)|
  }

  /** Counting one more ticker adds one exactly when it meets the criterion. */
  lemma CountAddOne(results: map<Ticker, TickerAnalysis>, ks: set<Ticker>, t: Ticker, c: Criterion)
    requires t in results && t !in ks
    ensures CountOf(results, ks + {t}, c) == CountOf(results, ks, c) + (if Meets(results[t], c) then 1 else 0)
  {
    if Meets(results[t], c) {
      assert Matching(results, ks + {t}, c) == Matching(results, ks, c) + {t};
    } else {
      assert Matching(results, ks + {t}, c) == Matching(results, ks, c);
    }
  }

  /** The summary counters say, for the tickers in `ks`, how many meet each criterion. */
  predicate Counts(r: Summary, results: map<Ticker, TickerAnalysis>, ks: set<Ticker>) {
    && r.tickersAnalyzed == CountOf(results, ks, Analyzed)
    && r.tickersWithAlerts == CountOf(results, ks, WithAlerts)
    && r.alerts7 == CountOf(results, ks, AlertFor(P7))
    && r.alerts30 == CountOf(results, ks, AlertFor(P30))
    && r.alerts90 == CountOf(results, ks, AlertFor(P90))
  }

  /** The loop body of `generate_daily_summary` for one result. */
  function Tally(r: Summary, a: TickerAnalysis): (r': Summary)
    ensures r'.totalTickers == r.totalTickers
    ensures r'.tickersAnalyzed == r.tickersAnalyzed + (if Meets(a, Analyzed) then 1 else 0)
    ensures r'.tickersWithAlerts == r.tickersWithAlerts + (if Meets(a, WithAlerts) then 1 else 0)
    ensures r'.alerts7 == r.alerts7 + (if Meets(a, AlertFor(P7)) then 1 else 0)
    ensures r'.alerts30 == r.alerts30 + (if Meets(a, AlertFor(P30)) then 1 else 0)
    ensures r'.alerts90 == r.alerts90 + (if Meets(a, AlertFor(P90)) then 1 else 0)
  {
    if !a.analysisComplete then r
    else
      var r := r.(tickersAnalyzed := r.tickersAnalyzed + 1);
      if !a.alertsTriggered.GetOr(false) then r
      else
        Summary(r.totalTickers, r.tickersWithAlerts + 1,
          r.alerts7 + (if P7 in a.alertConditions then 1 else 0),
          r.alerts30 + (if P30 in a.alertConditions then 1 else 0),
          r.alerts90 + (if P90 in a.alertConditions then 1 else 0),
          r.tickersAnalyzed)
  }

  /** `generate_daily_summary`: every counter counts the results that meet its criterion. */
  method GenerateDailySummary(results: map<Ticker, TickerAnalysis>) returns (r: Summary)
    ensures r.totalTickers == |results|
    ensures Counts(r, results, results.Keys)
  {
    r := Summary(|results|, 0, 0, 0, 0, 0);
    var todo := results.Keys;
    ghost var done: set<Ticker> := {};
    while todo != {}
      invariant todo !! done && todo + done == results.Keys
      invariant r.totalTickers == |results|
      invariant Counts(r, results, done)
      decreases |todo|
    {
      NonEmptyHasElement(todo);
      var t :| t in todo;
      TallyCounts(results, done, t, r);
      r := Tally(r, results[t]);
      todo := todo - {t};
      done := done + {t};
    }
  }

  /** Tallying one more result keeps the counters exact. */
  lemma TallyCounts(results: map<Ticker, TickerAnalysis>, done: set<Ticker>, t: Ticker, r: Summary)
    requires t in results && t !in done
    requires Counts(r, results, done)
    ensures Counts(Tally(r, results[t]), results, done + {t})
  {
    CountAddOne(results, done, t, Analyzed);
    CountAddOne(results, done, t, WithAlerts);
    CountAddOne(results, done, t, AlertFor(P7));
    CountAddOne(results, done, t, AlertFor(P30));
    CountAddOne(results, done, t, AlertFor(P90));
  }

  /** A criterion that implies another counts no more tickers. */
  lemma CountMonotone(results: map<Ticker, TickerAnalysis>, c: Criterion, d: Criterion)
    requires forall a :: Meets(a, c) ==> Meets(a, d)
    ensures CountOf(results, results.Keys, c) <= CountOf(results, results.Keys, d)
  {
    SubsetCard(Matching(results, results.Keys, c), Matching(results, results.Keys, d));
  }

  /** A subset has no more elements than its superset. */
  lemma {:induction false} SubsetCard(a: set<Ticker>, b: set<Ticker>)
    requires a <= b
    ensures |a| <= |b|
    decreases |b|
  {
    if b == {} {
      assert forall x :: x !in a;
      assert a == {};
    } else {
      NonEmptyHasElement(b);
      var x :| x in b;
      SubsetCard(a - {x}, b - {x});
    }
  }

  /** The counters nest: every per-period count is at most the tickers with alerts, which
      are at most the tickers analysed, which are at most all tickers. */
  lemma SummaryChain(results: map<Ticker, TickerAnalysis>, r: Summary, p: Period)
    requires r.totalTickers == |results| && Counts(r, results, results.Keys)
    ensures CountOf(results, results.Keys, AlertFor(p)) <= r.tickersWithAlerts
    ensures r.tickersWithAlerts <= r.tickersAnalyzed <= r.totalTickers
    ensures r.alerts7 <= r.tickersWithAlerts && r.alerts30 <= r.tickersWithAlerts && r.alerts90 <= r.tickersWithAlerts
  {
    CountMonotone(results, AlertFor(p), WithAlerts);
    CountMonotone(results, AlertFor(P7), WithAlerts);
    CountMonotone(results, AlertFor(P30), WithAlerts);
    CountMonotone(results, AlertFor(P90), WithAlerts);
    CountMonotone(results, WithAlerts, Analyzed);
    SubsetCard(Matching(results, results.Keys, Analyzed), results.Keys);
  }

  /** One entry of `performance_metrics`. */
  datatype Metric = Metric(average: real, change: real, changePercent: real, aboveAverage: bool)

  /** The record `get_ticker_performance_summary` returns; `timestamp` is the clock reading
      passed in. */
  datatype Performance = Performance(
    ticker: Ticker,
    currentPrice: real,
    timestamp: Instant,
    averages: Averages,
    metrics: map<Period, Metric>)

  /** Some defined average is zero, which the percent change divides by. */
  predicate SomeZeroAverage(avgs: Averages) {
    exists p :: HasAverage(avgs, p) && avgs[p].value == 0.0
  }

  /** The body of `get_ticker_performance_summary` once the price and the averages are
      known: None when a zero average makes the percent change raise, otherwise a metric
      for exactly the defined averages. */
  function PerformanceOf(t: Ticker, price: real, avgs: Averages, now: Instant): (r: Option<Performance>)
    ensures r.None? <==> SomeZeroAverage(avgs)
    ensures r.Some? ==> r.value.ticker == t && r.value.currentPrice == price
    ensures r.Some? ==> r.value.timestamp == now && r.value.averages == avgs
    ensures r.Some? ==> forall p :: p in r.value.metrics <==> HasAverage(avgs, p)
    ensures r.Some? ==> forall p :: p in r.value.metrics ==>
              r.value.metrics[p].average == avgs[p].value && r.value.metrics[p].change == price - avgs[p].value
    ensures r.Some? ==> forall p :: p in r.value.metrics ==>
              r.value.metrics[p].changePercent * r.value.metrics[p].average == r.value.metrics[p].change * 100.0
    ensures r.Some? ==> forall p :: p in r.value.metrics ==>
              (r.value.metrics[p].aboveAverage <==> price > r.value.metrics[p].average)
  {
    if SomeZeroAverage(avgs) then None
    else
      var metrics := map p | p in avgs && HasAverage(avgs, p) ::
        var avg := avgs[p].value;
        Metric(avg, price - avg, Percent(price - avg, avg), price - avg > 0.0);
      Some(Performance(t, price, now, avgs, metrics))
  }

  /** `get_ticker_performance_summary`: None without a current price; otherwise the
      performance against the ticker's averages. */
  function PerformanceSummary(s: Database.Store, t: Ticker, now: Instant): (r: Option<Performance>)
    ensures Database.CurrentPrice(s, t).None? ==> r.None?
    ensures Database.CurrentPrice(s, t).Some? ==>
              r == PerformanceOf(t, Database.CurrentPrice(s, t).value, CalculateAverages(s, t), now)
  {
    match Database.CurrentPrice(s, t)
    case None => None
    case Some(price) => PerformanceOf(t, price, CalculateAverages(s, t), now)
  }

  /** The gap to one average, as `analyze_single_ticker` records it. */
  datatype Difference = Difference(difference: real, percentage: real)

  /** The record `analyze_single_ticker` returns. */
  datatype SingleAnalysis = SingleAnalysis(
    ticker: Ticker,
    currentPrice: real,
    averages: map<Period, real>,
    triggered: seq<Period>,
    priceDifferences: map<Period, Difference>,
    alertsTriggered: bool,
    timestamp: Instant)

  /** The defined averages, without the missing ones (`averages_dict`). */
  function DefinedAverages(avgs: Averages): (d: map<Period, real>)
    ensures forall p :: p in d <==> HasAverage(avgs, p)
    ensures forall p :: p in d ==> HasAverage(avgs, p) && d[p] == avgs[p].value
  {
    map p | p in avgs && HasAverage(avgs, p) :: avgs[p].value
  }

  /** The periods of `ps`, in their order, whose average lies above the price. */
  function TriggeredIn(ps: seq<Period>, price: real, d: map<Period, real>): (r: seq<Period>)
    ensures forall p :: p in r <==> p in ps && p in d && price < d[p]
    ensures |r| <= |ps|
  {
    if |ps| == 0 then []
    else
      var rest := TriggeredIn(ps[1..], price, d);
      assert forall p :: p in ps <==> p == ps[0] || p in ps[1..];
      if ps[0] in d && price < d[ps[0]] then [ps[0]] + rest else rest
  }

  /** The periods, in 7/30/90 order, whose defined average lies above the price
      (`triggered_averages`). */
  function TriggeredPeriods(price: real, d: map<Period, real>): (r: seq<Period>)
    ensures forall p :: p in r <==> p in d && price < d[p]
    ensures forall i, j :: 0 <= i < j < |r| ==> r[i].Days() < r[j].Days()
  {
    PeriodsComplete();
    AscendingPeriods(Periods, price, d);
    TriggeredIn(Periods, price, d)
  }

  /** The gap to every defined average above the price (`price_differences`); the caller
      has ruled out a zero average above the price. */
  function PriceDifferences(price: real, d: map<Period, real>): (r: map<Period, Difference>)
    requires forall p :: p in d && price < d[p] ==> d[p] != 0.0
    ensures forall p :: p in r <==> p in d && price < d[p]
    ensures forall p :: p in r ==> r[p].difference == d[p] - price > 0.0
    ensures forall p :: p in r ==> r[p].percentage * d[p] == r[p].difference * 100.0
  {
    map p | p in d && price < d[p] ::
      var avg := d[p];
      Difference(avg - price, Percent(avg - price, avg))
  }

  /** The body of `analyze_single_ticker` once the price and the averages are known: None
      when a zero average would be divided by; otherwise the periods whose average lies
      above the price, in 7/30/90 order, with the gap for each. */
  function SingleAnalysisOf(t: Ticker, price: real, avgs: Averages, now: Instant): (r: Option<SingleAnalysis>)
    ensures r.None? <==> ZeroAverageBelow(price, avgs)
    ensures r.Some? ==> r.value.ticker == t && r.value.currentPrice == price && r.value.timestamp == now
    ensures r.Some? ==> r.value.averages == DefinedAverages(avgs)
    ensures r.Some? ==> r.value.triggered == TriggeredPeriods(price, r.value.averages)
    ensures r.Some? ==> forall p :: p in r.value.averages && price < r.value.averages[p] ==> r.value.averages[p] != 0.0
    ensures r.Some? ==> r.value.priceDifferences == PriceDifferences(price, r.value.averages)
    ensures r.Some? ==> (r.value.alertsTriggered <==> |r.value.triggered| > 0)
  {
    if ZeroAverageBelow(price, avgs) then None
    else
      var d := DefinedAverages(avgs);
      var triggered := TriggeredPeriods(price, d);
      Some(SingleAnalysis(t, price, d, triggered, PriceDifferences(price, d), |triggered| > 0, now))
  }

  /** `analyze_single_ticker`: None without a current price (the averages are never empty,
      so the source's second None does not arise); otherwise the analysis against the
      ticker's averages. */
  function AnalyzeSingleTicker(s: Database.Store, t: Ticker, now: Instant): (r: Option<SingleAnalysis>)
    ensures Database.CurrentPrice(s, t).None? ==> r.None?
    ensures Database.CurrentPrice(s, t).Some? ==>
              r == SingleAnalysisOf(t, Database.CurrentPrice(s, t).value, CalculateAverages(s, t), now)
  {
    match Database.CurrentPrice(s, t)
    case None => None
    case Some(price) => SingleAnalysisOf(t, price, CalculateAverages(s, t), now)
  }

  /** Filtering the periods keeps their ascending order. */
  lemma {:induction false} AscendingPeriods(ps: seq<Period>, price: real, d: map<Period, real>)
    requires forall i, j :: 0 <= i < j < |ps| ==> ps[i].Days() < ps[j].Days()
    ensures forall i, j :: 0 <= i < j < |TriggeredIn(ps, price, d)| ==>
              TriggeredIn(ps, price, d)[i].Days() < TriggeredIn(ps, price, d)[j].Days()
  {
    if |ps| > 0 {
      AscendingPeriods(ps[1..], price, d);
      var rest := TriggeredIn(ps[1..], price, d);
      forall k | 0 <= k < |rest| ensures ps[0].Days() < rest[k].Days() {
        assert rest[k] in ps[1..];
      }
    }
  }

  /** The alert conditions and the single-ticker analysis agree: the same periods are
      flagged, with the same gaps. */
  lemma SingleAgreesWithComparison(t: Ticker, price: real, avgs: Averages, now: Instant)
    requires SingleAnalysisOf(t, price, avgs, now).Some?
    ensures var a := SingleAnalysisOf(t, price, avgs, now).value;
            var c := ComparePriceToAverages(price, avgs);
            forall p :: (p in c <==> p in a.triggered)
                        && (p in c ==> p in a.priceDifferences
                                       && c[p].absoluteDifference == a.priceDifferences[p].difference)
  {
  }
}

=== FILE: common.dfy ===
/** Shared vocabulary of the model: optional values (Python's `None`), Python's
    prefix slice `xs[:n]`, and sums and means of sequences of reals. */
module Common {

  /** A value that may be missing; `None` plays the part of Python's `None`. */
  datatype Option<+T> = None | Some(value: T) {

    /** The value, or `default` when it is missing (Python's `d.get(k, default)`). */
    function GetOr(default: T): T {
      match this
      case Some(v) => v
      case None => default
    }
  }

  /** Python's `xs[:n]`: a prefix of `xs`; a negative `n` counts from the end. */
  function PyTake<T>(xs: seq<T>, n: int): (r: seq<T>)
    ensures r <= xs
    ensures n >= 0 ==> |r| == Min(n, |xs|)
    ensures n < 0 ==> |r| == Max(0, |xs| + n)
  {
    if n >= 0 then xs[..Min(n, |xs|)] else xs[..Max(0, |xs| + n)]
  }

  function Min(a: int, b: int): int {
    if a <= b then a else b
  }

  function Max(a: int, b: int): int {
    if a >= b then a else b
  }

  /** Sum of a sequence of reals, accumulated from the front as SQL's SUM would. */
  function Sum(xs: seq<real>): real {
    if |xs| == 0 then 0.0 else xs[0] + Sum(xs[1..])
  }

  /** Arithmetic mean (SQL's `AVG` over a non-empty set of rows). */
  function Mean(xs: seq<real>): real
    requires |xs| > 0
  {
    Sum(xs) / |xs| as real
  }

  /** `part` as a percentage of `base`, as the source writes it: `(part / base) * 100`. */
  function Percent(part: real, base: real): (r: real)
    requires base != 0.0
    ensures r * base == part * 100.0
  {
    part / base * 100.0
  }

  /** A sum lies between `|xs| * lo` and `|xs| * hi` when every term lies between `lo` and `hi`. */
  lemma {:induction false} SumBounds(xs: seq<real>, lo: real, hi: real)
    requires forall i :: 0 <= i < |xs| ==> lo <= xs[i] <= hi
    ensures |xs| as real * lo <= Sum(xs) <= |xs| as real * hi
  {
    if |xs| > 0 {
      SumBounds(xs[1..], lo, hi);
    }
  }

  /** The mean of a non-empty sequence lies between any lower and upper bound of its terms. */
  lemma MeanBounds(xs: seq<real>, lo: real, hi: real)
    requires |xs| > 0
    requires forall i :: 0 <= i < |xs| ==> lo <= xs[i] <= hi
    ensures lo <= Mean(xs) <= hi
  {
    SumBounds(xs, lo, hi);
    var n := |xs| as real;
    assert Mean(xs) * n == Sum(xs);
  }

  /** Sum distributes over concatenation. */
  lemma {:induction false} SumAppend(xs: seq<real>, ys: seq<real>)
    ensures Sum(xs + ys) == Sum(xs) + Sum(ys)
  {
    if |xs| > 0 {
      assert (xs + ys)[1..] == xs[1..] + ys;
      SumAppend(xs[1..], ys);
    } else {
      assert xs + ys == ys;
    }
  }

  /** A set is empty or has an element. */
  lemma NonEmptyHasElement<T>(s: set<T>)
    ensures s == {} || exists x :: x in s
  {
    if forall x :: x !in s {
      assert s == {};
    }
  }

  /** `a` is `b` with some elements dropped. */
  predicate IsSubsequence<T(==)>(a: seq<T>, b: seq<T>) {
    if |a| == 0 then true
    else if |b| == 0 then false
    else if a[0] == b[0] then IsSubsequence(a[1..], b[1..])
    else IsSubsequence(a, b[1..])
  }

  /** Dropping the head of `b` keeps a subsequence of its tail a subsequence of `b`. */
  lemma {:induction false} SubsequenceSkip<T>(a: seq<T>, b: seq<T>)
    requires |b| > 0 && IsSubsequence(a, b[1..])
    ensures IsSubsequence(a, b)
    decreases |a| + |b|
  {
    if |a| > 0 && a[0] == b[0] {
      TailSubsequence(a, b[1..]);
    }
  }

  /** A subsequence of `b`, less its head, is a subsequence of `b`. */
  lemma {:induction false} TailSubsequence<T>(a: seq<T>, b: seq<T>)
    requires |a| > 0 && IsSubsequence(a, b)
    ensures IsSubsequence(a[1..], b)
    decreases |a| + |b|
  {
    if a[0] != b[0] {
      TailSubsequence(a, b[1..]);
    }
    SubsequenceSkip(a[1..], b);
  }

  /** `ws` keeps exactly the elements of `xs` that satisfy `keep`, in order and as often as
      they occur. */
  ghost predicate FilterOf<T(!new)>(ws: seq<T>, xs: seq<T>, keep: T -> bool) {
    IsSubsequence(ws, xs) && forall x :: multiset(ws)[x] == if keep(x) then multiset(xs)[x] else 0
  }

  /** Filtering the head, then the tail, filters the whole sequence. */
  lemma FilterCons<T(!new)>(xs: seq<T>, ws: seq<T>, wr: seq<T>, keep: T -> bool)
    requires |xs| > 0
    requires ws == (if keep(xs[0]) then [xs[0]] else []) + wr
    requires FilterOf(wr, xs[1..], keep)
    ensures FilterOf(ws, xs, keep)
  {
    assert multiset(xs) == multiset([xs[0]]) + multiset(xs[1..]) by {
      assert xs == [xs[0]] + xs[1..];
    }
    if keep(xs[0]) {
      assert ws[0] == xs[0] && ws[1..] == wr;
    } else {
      assert ws == wr;
      SubsequenceSkip(wr, xs);
    }
  }

  /** Python's `abs` on a float. */
  function Abs(x: real): (r: real)
    ensures r >= 0.0 && (r == x || r == -x)
  {
    if x < 0.0 then -x else x
  }
}

=== FILE: config.dfy ===
/** `_replace_env_vars` of stock/main.py: every string of the loaded configuration has its
    `${NAME}` and `$NAME` placeholders replaced by the value of the environment variable
    `NAME`, when that variable is set and not empty. The environment is a map. */
module Config {
  import opened Common
  import Text

  /** The loaded YAML document: mappings keep their key order, and every scalar other than
      a string (number, boolean, null) is an opaque leaf. */
  datatype ConfigValue =
    | Dict(entries: seq<(string, ConfigValue)>)
    | List(items: seq<ConfigValue>)
    | Str(s: string)
    | Other(code: int)

  // ---------------------------------------------------------------------------
  // The placeholder pattern `\$\{([^}]+)\}|\$([a-zA-Z_][a-zA-Z0-9_]*)`

  predicate IsNameStart(c: char) {
    'a' <= c <= 'z' || 'A' <= c <= 'Z' || c == '_'
  }

  predicate IsNameChar(c: char) {
    IsNameStart(c) || '0' <= c <= '9'
  }

  /** The end of the run of name characters that starts at `i`. */
  function NameEnd(s: string, i: nat): (e: nat)
    requires i <= |s|
    ensures i <= e <= |s|
    ensures forall k :: i <= k < e ==> IsNameChar(s[k])
    ensures e == |s| || !IsNameChar(s[e])
    decreases |s| - i
  {
    if i == |s| || !IsNameChar(s[i]) then i else NameEnd(s, i + 1)
  }

  /** The first `}` at or after `i`. */
  function CloseBrace(s: string, i: nat): (j: Option<nat>)
    requires i <= |s|
    ensures j.Some? ==> i <= j.value < |s| && s[j.value] == '}'
    ensures forall k :: i <= k < |s| && (j.None? || k < j.value) ==> s[k] != '}'
    decreases |s| - i
  {
    if i == |s| then None else if s[i] == '}' then Some(i) else CloseBrace(s, i + 1)
  }

  /** A piece of a string as the pattern splits it: a character outside every match, or a
      match with the variable name it captured and the text it covers. */
  datatype Token = Lit(c: char) | Var(name: string, text: string)

  function TokenText(t: Token): string {
    match t
    case Lit(c) => [c]
    case Var(_, text) => text
  }

  /** The text the tokens cover, in order. */
  function Render(ts: seq<Token>): string {
    if |ts| == 0 then "" else TokenText(ts[0]) + Render(ts[1..])
  }

  /** `re.findall` scanning from the left: at a `$`, the braced form is tried first (a
      non-empty run of non-`}` characters closed by the first `}`), then the bare form (a
      name starting with a letter or `_`); otherwise the character is skipped. */
  function Scan(s: string): (ts: seq<Token>)
    ensures forall k :: 0 <= k < |ts| && ts[k].Var? ==> |ts[k].name| > 0
    decreases |s|
  {
    if |s| == 0 then []
    else if s[0] == '$' && |s| >= 2 && s[1] == '{' && CloseBrace(s, 2).Some? && CloseBrace(s, 2).value >= 3 then
      var j := CloseBrace(s, 2).value;
      [Var(s[2..j], s[..j + 1])] + Scan(s[j + 1..])
    else if s[0] == '$' && |s| >= 2 && IsNameStart(s[1]) then
      var e := NameEnd(s, 2);
      [Var(s[1..e], s[..e])] + Scan(s[e..])
    else [Lit(s[0])] + Scan(s[1..])
  }

  /** The scan covers the string exactly: nothing is lost or repeated. */
  lemma {:induction false} ScanCovers(s: string)
    ensures Render(Scan(s)) == s
    decreases |s|
  {
    if |s| == 0 {
    } else if s[0] == '$' && |s| >= 2 && s[1] == '{' && CloseBrace(s, 2).Some? && CloseBrace(s, 2).value >= 3 {
      var j := CloseBrace(s, 2).value;
      ScanCovers(s[j + 1..]);
      assert s == s[..j + 1] + s[j + 1..];
    } else if s[0] == '$' && |s| >= 2 && IsNameStart(s[1]) {
      var e := NameEnd(s, 2);
      ScanCovers(s[e..]);
      assert s == s[..e] + s[e..];
    } else {
      ScanCovers(s[1..]);
      assert s == [s[0]] + s[1..];
    }
  }

  /** Every match starts with `$`, so a string without one has no placeholder. */
  lemma {:induction false} NoDollarNoMatch(s: string)
    requires forall k :: 0 <= k < |s| ==> s[k] != '$'
    ensures forall k :: 0 <= k < |Scan(s)| ==> Scan(s)[k].Lit?
    decreases |s|
  {
    if |s| > 0 {
      NoDollarNoMatch(s[1..]);
    }
  }

  /** The captured names, in order (`match[0] or match[1]`). */
  function Names(ts: seq<Token>): (ns: seq<string>)
    ensures (forall k :: 0 <= k < |ts| ==> ts[k].Lit?) ==> ns == []
    ensures forall n :: n in ns ==> exists k :: 0 <= k < |ts| && ts[k].Var? && ts[k].name == n
  {
    if |ts| == 0 then []
    else
      var rest := Names(ts[1..]);
      assert forall n :: n in rest ==> exists k :: 0 <= k < |ts| && ts[k].Var? && ts[k].name == n by {
        forall n | n in rest ensures exists k :: 0 <= k < |ts| && ts[k].Var? && ts[k].name == n {
          var k :| 0 <= k < |ts[1..]| && ts[1..][k].Var? && ts[1..][k].name == n;
          assert ts[k + 1] == ts[1..][k];
        }
      }
      if ts[0].Var? then [ts[0].name] + rest else rest
  }

  /** `os.getenv(name)` is truthy: set and not empty. */
  predicate IsSet(env: map<string, string>, name: string) {
    name in env && env[name] != ""
  }

  // ---------------------------------------------------------------------------
  // As written

  /** One round of the loop: `obj.replace('${NAME}', v).replace('$NAME', v)` when the
      variable is set, nothing otherwise. */
  function SubstituteOne(s: string, name: string, env: map<string, string>): (r: string)
    ensures !IsSet(env, name) ==> r == s
    ensures IsSet(env, name) ==>
              r == Text.Join(Text.Split(Text.Join(Text.Split(s, "${" + name + "}"), env[name]),
                                        "$" + name), env[name])
  {
    if IsSet(env, name) then
      var v := env[name];
      var once := Text.Replace(s, "${" + name + "}", v);
      Text.ReplaceIsJoinOfSplit(s, "${" + name + "}", v);
      Text.ReplaceIsJoinOfSplit(once, "$" + name, v);
      Text.Replace(once, "$" + name, v)
    else s
  }

  /** The loop over the captured names, in order. */
  function SubstituteAll(s: string, names: seq<string>, env: map<string, string>): string
    decreases |names|
  {
    if |names| == 0 then s else SubstituteAll(SubstituteOne(s, names[0], env), names[1..], env)
  }

  /** `replace_recursive` on a string, as written. */
  function ExpandString(s: string, env: map<string, string>): string {
    SubstituteAll(s, Names(Scan(s)), env)
  }

  /** Rounds for variables that are unset or empty change nothing. */
  lemma {:induction false} UnsetNamesChangeNothing(s: string, names: seq<string>, env: map<string, string>)
    requires forall k :: 0 <= k < |names| ==> !IsSet(env, names[k])
    ensures SubstituteAll(s, names, env) == s
  {
    if |names| > 0 {
      UnsetNamesChangeNothing(s, names[1..], env);
    }
  }

  /** A string whose placeholders all name unset or empty variables comes back unchanged;
      so does a string without `$`. */
  lemma ExpandStringUnchanged(s: string, env: map<string, string>)
    requires (forall k :: 0 <= k < |s| ==> s[k] != '$')
             || (forall n :: n in Names(Scan(s)) ==> !IsSet(env, n))
    ensures ExpandString(s, env) == s
  {
    if forall k :: 0 <= k < |s| ==> s[k] != '$' {
      NoDollarNoMatch(s);
    }
    UnsetNamesChangeNothing(s, Names(Scan(s)), env);
  }

  /** `_replace_env_vars`: strings are expanded (in a single pass, see `ExpandStringFixed`),
      mappings keep their keys, lists their length, and other leaves are returned as they are. */
  function ReplaceEnvVars(v: ConfigValue, env: map<string, string>): (r: ConfigValue)
    ensures Expanded(v, r, env)
    decreases v, 2
  {
    match v
    case Dict(entries) => Dict(ReplaceEntries(entries, env, v))
    case List(items) => List(ReplaceItems(items, env, v))
    case Str(s) => Str(ExpandStringFixed(s, env))
    case Other(_) => v
  }

  function ReplaceEntries(entries: seq<(string, ConfigValue)>, env: map<string, string>, ghost parent: ConfigValue)
    : (r: seq<(string, ConfigValue)>)
    requires forall k :: 0 <= k < |entries| ==> entries[k].1 < parent
    ensures |r| == |entries|
    ensures forall k :: 0 <= k < |r| ==> r[k].0 == entries[k].0 && Expanded(entries[k].1, r[k].1, env)
    decreases parent, 1, |entries|
  {
    if |entries| == 0 then []
    else [(entries[0].0, ReplaceEnvVars(entries[0].1, env))] + ReplaceEntries(entries[1..], env, parent)
  }

  function ReplaceItems(items: seq<ConfigValue>, env: map<string, string>, ghost parent: ConfigValue)
    : (r: seq<ConfigValue>)
    requires forall k :: 0 <= k < |items| ==> items[k] < parent
    ensures |r| == |items|
    ensures forall k :: 0 <= k < |r| ==> Expanded(items[k], r[k], env)
    decreases parent, 1, |items|
  {
    if |items| == 0 then []
    else [ReplaceEnvVars(items[0], env)] + ReplaceItems(items[1..], env, parent)
  }

  /** `b` is `a` with every string leaf expanded under `env`: the same kinds at the same
      places, the same keys in the same order, the same list lengths and the same
      non-string leaves. */
  predicate Expanded(a: ConfigValue, b: ConfigValue, env: map<string, string>) {
    match a
    case Dict(es) =>
      b.Dict? && |b.entries| == |es|
      && forall k :: 0 <= k < |es| ==> b.entries[k].0 == es[k].0 && Expanded(es[k].1, b.entries[k].1, env)
    case List(xs) =>
      b.List? && |b.items| == |xs| && forall k :: 0 <= k < |xs| ==> Expanded(xs[k], b.items[k], env)
    case Str(s) => b == Str(ExpandStringFixed(s, env))
    case Other(_) => b == a
  }

  /** A placeholder that is a prefix of a longer one is replaced inside it: with `A=x` and
      `AB=y`, the string `$A-$AB` becomes `x-xB`. */
  lemma PrefixNameClobbers()
    ensures ExpandString("$A-$AB", map["A" := "x", "AB" := "y"]) == "x-xB"
  {
    var s := "$A-$AB";
    var env := map["A" := "x", "AB" := "y"];
    ScanExample();
    var ts := [Var("A", "$A"), Lit('-'), Var("AB", "$AB")];
    assert ts[1..][1..] == [Var("AB", "$AB")];
    assert Names(ts[1..][1..]) == ["AB"];
    assert Names(ts) == ["A", "AB"];
    ReplaceExample();
  }

  lemma ScanExample()
    ensures Scan("$A-$AB") == [Var("A", "$A"), Lit('-'), Var("AB", "$AB")]
  {
    var t := "$AB";
    assert t[0] == '$' && t[1] == 'A' && t[2] == 'B';
    assert NameEnd(t, 3) == 3;
    assert NameEnd(t, 2) == 3;
    assert t[1..3] == "AB" && t[..3] == t && t[3..] == "";
    assert Scan(t) == [Var("AB", "$AB")];
    var u := "-$AB";
    assert u[0] == '-' && u[1..] == t;
    assert Scan(u) == [Lit('-')] + Scan(t);
    var s := "$A-$AB";
    assert s[0] == '$' && s[1] == 'A' && s[2] == '-';
    assert NameEnd(s, 2) == 2;
    assert s[1..2] == "A" && s[..2] == "$A" && s[2..] == u;
  }

  lemma ReplaceExample()
    ensures SubstituteAll("$A-$AB", ["A", "AB"], map["A" := "x", "AB" := "y"]) == "x-xB"
  {
    SubstituteFirst();
    SubstituteSecond();
    assert ["A", "AB"][1..] == ["AB"];
  }

  /** The round for `A` rewrites both bare occurrences of `$A`. */
  lemma SubstituteFirst()
    ensures SubstituteOne("$A-$AB", "A", map["A" := "x", "AB" := "y"]) == "x-xB"
  {
    var s := "$A-$AB";
    assert s[2] == '-';
    Text.ReplaceMissingChar(s, "${A}", "x", 1);
    ReplaceBareA();
    assert "${" + "A" + "}" == "${A}" && "$" + "A" == "$A";
  }

  /** The round for `AB` finds nothing left to replace. */
  lemma SubstituteSecond()
    ensures SubstituteOne("x-xB", "AB", map["A" := "x", "AB" := "y"]) == "x-xB"
  {
    var r := "x-xB";
    assert r[0] == 'x' && r[1] == '-' && r[2] == 'x' && r[3] == 'B';
    Text.ReplaceMissingChar(r, "${AB}", "y", 0);
    Text.ReplaceMissingChar(r, "$AB", "y", 0);
    assert "${" + "AB" + "}" == "${AB}" && "$" + "AB" == "$AB";
  }

  /** `"$A-$AB".replace("$A", "x")`, one occurrence at a time. */
  lemma ReplaceBareA()
    ensures Text.Replace("$A-$AB", "$A", "x") == "x-xB"
  {
    assert Text.Replace("B", "$A", "x") == "B";
    assert "$AB"[..2] == "$A" && "$AB"[2..] == "B";
    assert Text.Replace("$AB", "$A", "x") == "xB";
    assert "-$AB"[..2] != "$A" && "-$AB"[1..] == "$AB";
    assert Text.Replace("-$AB", "$A", "x") == "-xB";
    assert "$A-$AB"[..2] == "$A" && "$A-$AB"[2..] == "-$AB";
  }

  // ---------------------------------------------------------------------------
  // As intended

  /** Each placeholder replaced by its own variable's value when set, left as it is
      otherwise, in a single pass. */
  function Expand(ts: seq<Token>, env: map<string, string>): string {
    if |ts| == 0 then ""
    else
      var head := match ts[0]
        case Var(name, text) => if IsSet(env, name) then env[name] else text
        case Lit(c) => [c];
      head + Expand(ts[1..], env)
  }

  /** The single-pass expansion of a string. */
  function ExpandStringFixed(s: string, env: map<string, string>): string {
    Expand(Scan(s), env)
  }

  /** With no placeholder set, the single pass gives back the scanned text. */
  lemma {:induction false} ExpandUnsetIsRender(ts: seq<Token>, env: map<string, string>)
    requires forall k :: 0 <= k < |ts| && ts[k].Var? ==> !IsSet(env, ts[k].name)
    ensures Expand(ts, env) == Render(ts)
  {
    if |ts| > 0 {
      ExpandUnsetIsRender(ts[1..], env);
    }
  }

  /** The single pass leaves a string alone when none of its placeholders is set. */
  lemma ExpandStringFixedUnset(s: string, env: map<string, string>)
    requires forall k :: 0 <= k < |Scan(s)| && Scan(s)[k].Var? ==> !IsSet(env, Scan(s)[k].name)
    ensures ExpandStringFixed(s, env) == s
  {
    ExpandUnsetIsRender(Scan(s), env);
    ScanCovers(s);
  }

  /** The single pass fills each placeholder with its own value: `$A-$AB` becomes `x-y`. */
  lemma ExpandStringFixedExample()
    ensures ExpandStringFixed("$A-$AB", map["A" := "x", "AB" := "y"]) == "x-y"
  {
    ScanExample();
  }

  /** With no variable set, the whole configuration comes back unchanged. */
  lemma {:induction false} NothingSetChangesNothing(v: ConfigValue, env: map<string, string>)
    requires forall n :: !IsSet(env, n)
    ensures ReplaceEnvVars(v, env) == v
    decreases v, 2
  {
    match v
    case Dict(entries) => EntriesUnchanged(entries, env, v);
    case List(items) => ItemsUnchanged(items, env, v);
    case Str(s) => ExpandStringFixedUnset(s, env);
    case Other(_) =>
  }

  lemma {:induction false} EntriesUnchanged(entries: seq<(string, ConfigValue)>, env: map<string, string>,
                                            parent: ConfigValue)
    requires forall n :: !IsSet(env, n)
    requires forall k :: 0 <= k < |entries| ==> entries[k].1 < parent
    ensures ReplaceEntries(entries, env, parent) == entries
    decreases parent, 1, |entries|
  {
    if |entries| > 0 {
      NothingSetChangesNothing(entries[0].1, env);
      EntriesUnchanged(entries[1..], env, parent);
    }
  }

  lemma {:induction false} ItemsUnchanged(items: seq<ConfigValue>, env: map<string, string>, parent: ConfigValue)
    requires forall n :: !IsSet(env, n)
    requires forall k :: 0 <= k < |items| ==> items[k] < parent
    ensures ReplaceItems(items, env, parent) == items
    decreases parent, 1, |items|
  {
    if |items| > 0 {
      NothingSetChangesNothing(items[0], env);
      ItemsUnchanged(items[1..], env, parent);
    }
  }
}

=== FILE: data_fetcher.dfy ===
/** The decision rules of stock/data_fetcher.py with every yfinance answer passed in as a
    value: which known tickers count as automotive, how they are ranked by market
    capitalisation, which price source `fetch_current_price` uses, what the historical
    download keeps, and how the Yahoo cross-check scores itself. */
module DataFetcher {
  import opened Common
  import opened Records
  import opened Sorting
  import Text
  import Retry

  // ---------------------------------------------------------------------------
  // Ticker selection and ranking

  /** The ten known automotive tickers; also the fallback list. */
  const KnownAutomotive: seq<Ticker> :=
    ["TSLA", "TM", "F", "GM", "BMW3.DE", "MBGYY", "VWAGY", "HMC", "NSANY", "RACE"]

  const Keywords: seq<string> := ["automotive", "auto", "car", "vehicle"]

  /** What `yf.Ticker(t).info` gave: the lookup raised, or a dictionary in which `sector`,
      `industry` and `marketCap` may be missing. */
  datatype InfoLookup =
    | LookupFailed
    | Info(sector: Option<string>, industry: Option<string>, marketCap: Option<real>)

  /** Some keyword occurs in the lower-cased text. */
  predicate MentionsAutomotive(text: string) {
    exists k :: 0 <= k < |Keywords| && Text.Contains(Text.Lower(text), Keywords[k])
  }

  /** The keep rule: the sector decides when present, else the industry, and a ticker with
      neither is kept. */
  predicate Keeps(info: InfoLookup) {
    match info
    case LookupFailed => false
    case Info(sector, industry, _) =>
      if sector.Some? then MentionsAutomotive(sector.value)
      else if industry.Some? then MentionsAutomotive(industry.value)
      else true
  }

  /** The tickers of `ts` the keep rule accepts, in order. */
  function Select(ts: seq<Ticker>, lookup: Ticker -> InfoLookup): (r: seq<Ticker>)
    ensures IsSubsequence(r, ts)
    ensures forall t :: t in r <==> t in ts && Keeps(lookup(t))
  {
    if |ts| == 0 then []
    else
      var rest := Select(ts[1..], lookup);
      assert forall t :: t in ts <==> t == ts[0] || t in ts[1..];
      if Keeps(lookup(ts[0])) then
        assert IsSubsequence([ts[0]] + rest, ts) by {
          assert ([ts[0]] + rest)[1..] == rest;
        }
        [ts[0]] + rest
      else
        SubsequenceSkip(rest, ts);
        rest
  }

  /** `_get_automotive_sector_stocks`: the known tickers the keep rule accepts; a lookup
      that raises skips its ticker. */
  function AutomotiveSectorStocks(lookup: Ticker -> InfoLookup): (r: seq<Ticker>)
    ensures IsSubsequence(r, KnownAutomotive)
    ensures forall t :: t in r <==> t in KnownAutomotive && Keeps(lookup(t))
  {
    Select(KnownAutomotive, lookup)
  }

  /** With a sector present, the industry is never looked at. */
  lemma SectorDecides(s: string, i1: Option<string>, i2: Option<string>, c1: Option<real>, c2: Option<real>)
    ensures Keeps(Info(Some(s), i1, c1)) == Keeps(Info(Some(s), i2, c2))
    ensures Keeps(Info(Some(s), i1, c1)) == MentionsAutomotive(s)
  {
  }

  /** The market capitalisation used for ranking: a missing, zero or unreadable value is 0. */
  function CapOf(info: InfoLookup): (c: real)
    ensures info.LookupFailed? || info.marketCap.None? ==> c == 0.0
    ensures info.Info? && info.marketCap.Some? ==> c == info.marketCap.value
  {
    match info
    case LookupFailed => 0.0
    case Info(_, _, cap) => cap.GetOr(0.0)
  }

  /** All of `ts` stably sorted by market capitalisation, largest first. */
  function Ranked(ts: seq<Ticker>, lookup: Ticker -> InfoLookup): (r: seq<Ticker>)
    ensures multiset(r) == multiset(ts)
    ensures forall i, j :: 0 <= i < j < |r| ==> CapOf(lookup(r[i])) >= CapOf(lookup(r[j]))
  {
    var key := (t: Ticker) => CapOf(lookup(t));
    var r := SortDesc(ts, key);
    assert SortedDesc(r, key);
    r
  }

  /** `_rank_by_market_cap`: the first `count` of the ranking (Python's `[:count]`). */
  function RankByMarketCap(ts: seq<Ticker>, count: int, lookup: Ticker -> InfoLookup): (r: seq<Ticker>)
    ensures r <= Ranked(ts, lookup)
    ensures count >= 0 ==> |r| == Min(count, |ts|)
    ensures forall t :: t in r ==> t in ts
  {
    var all := Ranked(ts, lookup);
    var r := PyTake(all, count);
    assert forall t :: t in r ==> t in multiset(all);
    r
  }

  /** Tickers with equal capitalisation keep their input order. */
  lemma RankingStable(ts: seq<Ticker>, lookup: Ticker -> InfoLookup, v: real)
    ensures KeyClass(Ranked(ts, lookup), (t: Ticker) => CapOf(lookup(t)), v)
            == KeyClass(ts, (t: Ticker) => CapOf(lookup(t)), v)
  {
    SortDescStable(ts, (t: Ticker) => CapOf(lookup(t)), v);
  }

  /** The choice `get_top_automotive_stocks` makes once the selection is known: the ranked
      selection cut to `count` (the cut is applied twice, which only matters for a negative
      `count`), or the fallback list cut to `count` when the selection is empty. */
  function TopStocks(selected: seq<Ticker>, fallback: seq<Ticker>, count: int,
                     lookup: Ticker -> InfoLookup): (r: seq<Ticker>)
    ensures |selected| == 0 ==> r == PyTake(fallback, count)
    ensures |selected| > 0 ==> r <= RankByMarketCap(selected, count, lookup)
    ensures |selected| > 0 && count >= 0 ==> r == RankByMarketCap(selected, count, lookup)
    ensures forall t :: t in r ==> t in selected || t in fallback
  {
    if |selected| > 0 then PyTake(RankByMarketCap(selected, count, lookup), count)
    else PyTake(fallback, count)
  }

  /** `get_top_automotive_stocks`: every ticker it returns is a known automotive ticker. */
  function TopAutomotiveStocks(count: int, sectorLookup: Ticker -> InfoLookup,
                               capLookup: Ticker -> InfoLookup): (r: seq<Ticker>)
    ensures forall t :: t in r ==> t in KnownAutomotive
    ensures |AutomotiveSectorStocks(sectorLookup)| == 0 ==> r == PyTake(KnownAutomotive, count)
    ensures |AutomotiveSectorStocks(sectorLookup)| > 0 && count >= 0 ==>
              r == RankByMarketCap(AutomotiveSectorStocks(sectorLookup), count, capLookup)
  {
    TopStocks(AutomotiveSectorStocks(sectorLookup), KnownAutomotive, count, capLookup)
  }

  // ---------------------------------------------------------------------------
  // fetch_current_price

  /** A value Python treats as true: present and not zero. */
  predicate Truthy(x: Option<real>) {
    x.Some? && x.value != 0.0
  }

  /** The one-minute bars of the day: their closes, oldest first, and the last volume when
      the frame has a volume column. */
  datatype LiveData = LiveData(closes: seq<real>, lastVolume: Option<int>)

  /** The quote fields of `info` the function reads; a missing key is `None`. */
  datatype QuoteInfo = QuoteInfo(
    regularMarketPrice: Option<real>,
    previousClose: Option<real>,
    bid: Option<real>,
    ask: Option<real>,
    volume: Option<int>,
    marketCap: Option<real>,
    marketState: Option<string>)

  /** What reading `stock.info` gave: both the refreshing read and the fallback read in its
      handler raised, or the dictionary came back empty or missing, or it came back with
      fields. */
  datatype InfoAnswer = InfoRaised | InfoEmpty | InfoOk(fields: QuoteInfo)

  /** Everything one attempt reads: the live frame (`None` when fetching it raised), the
      info dictionary, the two-day history (`None` when fetching it raised), and the
      clock. */
  datatype QuoteSource = QuoteSource(
    live: Option<LiveData>,
    info: InfoAnswer,
    history: Option<seq<real>>,
    now: Instant)

  /** The live frame has at least `n` closes. */
  predicate LiveCloses(src: QuoteSource, n: nat) {
    src.live.Some? && |src.live.value.closes| >= n
  }

  /** The price chosen: the last live close, else a truthy regular-market price, else a
      truthy previous close. */
  function ChoosePrice(src: QuoteSource): (p: Option<real>)
    requires src.info.InfoOk?
    ensures LiveCloses(src, 1) ==> p == Some(src.live.value.closes[|src.live.value.closes| - 1])
    ensures !LiveCloses(src, 1) && Truthy(src.info.fields.regularMarketPrice) ==>
              p == src.info.fields.regularMarketPrice
    ensures (!LiveCloses(src, 1) && !Truthy(src.info.fields.regularMarketPrice)
             && Truthy(src.info.fields.previousClose)) ==> p == src.info.fields.previousClose
    ensures p.None? <==>
              !LiveCloses(src, 1)
              && !Truthy(src.info.fields.regularMarketPrice) && !Truthy(src.info.fields.previousClose)
    ensures p.Some? ==> !LiveCloses(src, 1) ==> p.value != 0.0
  {
    var info := src.info.fields;
    if LiveCloses(src, 1) then Some(src.live.value.closes[|src.live.value.closes| - 1])
    else if Truthy(info.regularMarketPrice) then info.regularMarketPrice
    else if Truthy(info.previousClose) then info.previousClose
    else None
  }

  /** The previous close chosen for price `price`: the second-to-last live close, else a
      truthy previous close from `info`, else the second-to-last close of the two-day
      history, else the price itself when that history raised; it stays `None` when the
      history has fewer than two rows. */
  function ChoosePreviousClose(src: QuoteSource, price: real): (pc: Option<real>)
    requires src.info.InfoOk?
    ensures LiveCloses(src, 2) ==> pc == Some(src.live.value.closes[|src.live.value.closes| - 2])
    ensures !LiveCloses(src, 2) && Truthy(src.info.fields.previousClose) ==>
              pc == src.info.fields.previousClose
    ensures !LiveCloses(src, 2) && !Truthy(src.info.fields.previousClose) && src.history.None? ==>
              pc == Some(price)
    ensures (!LiveCloses(src, 2) && !Truthy(src.info.fields.previousClose)
             && src.history.Some? && |src.history.value| >= 2) ==>
              pc == Some(src.history.value[|src.history.value| - 2])
    ensures pc.None? <==>
              !LiveCloses(src, 2) && !Truthy(src.info.fields.previousClose)
              && src.history.Some? && |src.history.value| < 2
  {
    var info := src.info.fields;
    if LiveCloses(src, 2) then Some(src.live.value.closes[|src.live.value.closes| - 2])
    else if Truthy(info.previousClose) then info.previousClose
    else if src.history.None? then Some(price)
    else if |src.history.value| >= 2 then Some(src.history.value[|src.history.value| - 2])
    else None
  }

  /** The price dictionary built once a price and a previous close are chosen. */
  function Quote(src: QuoteSource, price: real, previous: Option<real>): (d: PriceData)
    requires src.info.InfoOk?
    ensures d.price == price && d.previousClose == previous
    ensures d.bid == src.info.fields.bid && d.ask == src.info.fields.ask
    ensures d.marketCap == src.info.fields.marketCap
    ensures d.volume == (if LiveCloses(src, 1) && src.live.value.lastVolume.Some?
                         then src.live.value.lastVolume else src.info.fields.volume)
    ensures src.info.fields.marketState.Some? ==> d.marketState == src.info.fields.marketState.value
    ensures src.info.fields.marketState.None? ==> d.marketState == "unknown"
    ensures d.isMarketOpen <==> d.marketState == "REGULAR"
    ensures d.timestamp == src.now
  {
    var info := src.info.fields;
    var liveVolume := if LiveCloses(src, 1) then src.live.value.lastVolume else None;
    var state := info.marketState.GetOr("unknown");
    PriceData(
      price, previous, info.bid, info.ask,
      if liveVolume.Some? then liveVolume else info.volume,
      info.marketCap, state, state == "REGULAR", src.now)
  }

  /** One attempt of `fetch_current_price` as written. Reading `info` may raise; the
      closing log line formats the previous close with `:.6f`, which raises on `None`, so an
      attempt without a previous close fails too. A raise is retried. */
  function PriceAttempt(src: QuoteSource): (o: Retry.Outcome<PriceData>)
    ensures src.info.InfoEmpty? ==> o == Retry.Returned(None)
    ensures o.Raised? <==>
              src.info.InfoRaised?
              || (src.info.InfoOk? && ChoosePrice(src).Some?
                  && ChoosePreviousClose(src, ChoosePrice(src).value).None?)
    ensures o.Returned? && o.result.Some? ==>
              src.info.InfoOk? && Some(o.result.value.price) == ChoosePrice(src)
              && o.result.value.previousClose.Some?
    ensures o.Returned? && o.result.Some? ==>
              src.info.InfoOk? && o.result.value == Quote(src, o.result.value.price, o.result.value.previousClose)
  {
    match src.info
    case InfoRaised => Retry.Raised
    case InfoEmpty => Retry.Returned(None)
    case InfoOk(_) =>
      var price := ChoosePrice(src);
      if price.None? then Retry.Returned(None)
      else
        var previous := ChoosePreviousClose(src, price.value);
        if previous.None? then Retry.Raised
        else Retry.Returned(Some(Quote(src, price.value, previous)))
  }

  /** One attempt as evidently intended: a missing previous close is reported as `None`;
      only a raising `info` read fails the attempt. */
  function PriceAttemptFixed(src: QuoteSource): (o: Retry.Outcome<PriceData>)
    ensures o.Raised? <==> src.info.InfoRaised?
    ensures o.Returned? ==> (o.result.Some? <==> src.info.InfoOk? && ChoosePrice(src).Some?)
    ensures o.Returned? && o.result.Some? ==>
              Some(o.result.value.price) == ChoosePrice(src)
              && o.result.value.previousClose == ChoosePreviousClose(src, o.result.value.price)
    ensures o.Returned? && o.result.Some? ==>
              src.info.InfoOk? && o.result.value == Quote(src, o.result.value.price, o.result.value.previousClose)
  {
    match src.info
    case InfoRaised => Retry.Raised
    case InfoEmpty => Retry.Returned(None)
    case InfoOk(_) =>
      var price := ChoosePrice(src);
      if price.None? then Retry.Returned(None)
      else Retry.Returned(Some(Quote(src, price.value, ChoosePreviousClose(src, price.value))))
  }

  /** The two attempts differ exactly when a price is found but no previous close. */
  lemma AttemptsAgreeWithPreviousClose(src: QuoteSource)
    requires !(src.info.InfoOk? && ChoosePrice(src).Some?
               && ChoosePreviousClose(src, ChoosePrice(src).value).None?)
    ensures PriceAttempt(src) == PriceAttemptFixed(src)
  {
  }

  /** A concrete source showing the failure: one live bar, no previous close in `info`, and
      a one-row history. As written the attempt raises (and so every retry fails alike);
      the corrected attempt returns the price with no previous close. */
  lemma MissingPreviousCloseRaises()
    ensures var src := QuoteSource(Some(LiveData([10.0], None)),
                                   InfoOk(QuoteInfo(None, None, None, None, None, None, Some("REGULAR"))),
                                   Some([10.0]), 0);
            PriceAttempt(src) == Retry.Raised
            && PriceAttemptFixed(src).Returned?
            && PriceAttemptFixed(src).result.Some?
            && PriceAttemptFixed(src).result.value.price == 10.0
            && PriceAttemptFixed(src).result.value.previousClose.None?
  {
    var src := QuoteSource(Some(LiveData([10.0], None)),
                           InfoOk(QuoteInfo(None, None, None, None, None, None, Some("REGULAR"))),
                           Some([10.0]), 0);
    assert ChoosePrice(src) == Some(10.0);
    assert ChoosePreviousClose(src, 10.0).None?;
  }

  /** `fetch_current_price` as written, attempt `k` reading `sources(k)`: the attempts are
      made in turn until one does not raise, and that one's result is returned; each
      raising attempt but the last is followed by a back-off sleep. When every attempt
      lacks a previous close, all of them raise, the full schedule is slept, and nothing is
      returned. */
  method FetchCurrentPriceAsWritten(sources: nat -> QuoteSource, attempts: int, backoff: int)
    returns (data: Option<PriceData>, sleeps: seq<int>, tried: nat)
    ensures tried <= Max(attempts, 0) && (tried == 0 <==> attempts <= 0)
    ensures tried == 0 ==> data.None?
    ensures forall k :: 0 <= k < tried - 1 ==> PriceAttempt(sources(k)).Raised?
    ensures tried > 0 && PriceAttempt(sources(tried - 1)).Returned? ==>
              data == PriceAttempt(sources(tried - 1)).result
    ensures tried > 0 && PriceAttempt(sources(tried - 1)).Raised? ==> data.None? && tried == attempts
    ensures sleeps == Retry.Schedule(backoff, Max(tried - 1, 0))
    ensures (forall k :: PriceAttempt(sources(k)).Raised?) ==>
              data.None? && sleeps == Retry.Schedule(backoff, Max(attempts - 1, 0))
  {
    var attempt := (k: nat) => PriceAttempt(sources(k));
    data, sleeps, tried := Retry.Run(attempt, attempts, backoff);
    forall k | 0 <= k < tried - 1 ensures PriceAttempt(sources(k)).Raised? {
      assert attempt(k).Raised?;
    }
    if forall k :: PriceAttempt(sources(k)).Raised? {
      if tried > 0 {
        assert attempt(tried - 1).Raised?;
      }
    }
  }

  /** `fetch_current_price` with the corrected attempt, attempt `k` reading `sources(k)`:
      only a raising `info` read is retried, so the first attempt whose read does not raise
      decides the answer, after one back-off sleep per earlier attempt. */
  method FetchCurrentPrice(sources: nat -> QuoteSource, attempts: int, backoff: int)
    returns (data: Option<PriceData>, sleeps: seq<int>, tried: nat)
    ensures tried <= Max(attempts, 0) && (tried == 0 <==> attempts <= 0)
    ensures tried == 0 ==> data.None?
    ensures forall k :: 0 <= k < tried - 1 ==> sources(k).info.InfoRaised?
    ensures tried > 0 && !sources(tried - 1).info.InfoRaised? ==>
              data == PriceAttemptFixed(sources(tried - 1)).result
    ensures tried > 0 && sources(tried - 1).info.InfoRaised? ==> data.None? && tried == attempts
    ensures sleeps == Retry.Schedule(backoff, Max(tried - 1, 0))
    ensures attempts > 0 && !sources(0).info.InfoRaised? ==>
              tried == 1 && sleeps == [] && data == PriceAttemptFixed(sources(0)).result
  {
    var attempt := (k: nat) => PriceAttemptFixed(sources(k));
    data, sleeps, tried := Retry.Run(attempt, attempts, backoff);
    forall k | 0 <= k < tried - 1 ensures sources(k).info.InfoRaised? {
      assert attempt(k).Raised?;
    }
    if attempts > 0 && !sources(0).info.InfoRaised? {
      assert attempt(0).Returned?;
    }
  }

  // ---------------------------------------------------------------------------
  // fetch_historical_data

  /** A downloaded daily frame: its rows, oldest first, and which columns it has. */
  datatype Frame = Frame(rows: seq<Bar>, hasBasicColumns: bool, hasAdjClose: bool)

  const TradingDays: int := 90

  /** The rows kept: the last 90 (`data.tail(90)`), with `Adj Close` copied from `Close`
      when the column is missing; `None` for an empty frame or one missing a basic column. */
  function KeepHistory(f: Frame): (r: Option<seq<Bar>>)
    ensures r.Some? <==> |f.rows| > 0 && f.hasBasicColumns
    ensures r.Some? ==> |r.value| == Min(|f.rows|, TradingDays)
    ensures r.Some? ==> forall i :: 0 <= i < |r.value| ==>
              var src := f.rows[|f.rows| - |r.value| + i];
              r.value[i] == (if f.hasAdjClose then src else src.(adjClose := src.close))
  {
    if |f.rows| == 0 || !f.hasBasicColumns then None
    else
      var n := Min(|f.rows|, TradingDays);
      var tail := f.rows[|f.rows| - n..];
      if f.hasAdjClose then Some(tail)
      else Some(seq(n, i requires 0 <= i < n => tail[i].(adjClose := tail[i].close)))
  }

  /** One attempt of `fetch_historical_data`: the download raised (`None`), or it gave a
      frame, which ends the loop either way. */
  function HistoryAttempt(download: Option<Frame>): (o: Retry.Outcome<seq<Bar>>)
    ensures o.Raised? <==> download.None?
    ensures download.Some? ==> o.result == KeepHistory(download.value)
  {
    if download.None? then Retry.Raised else Retry.Returned(KeepHistory(download.value))
  }

  /** `fetch_historical_data`: attempt `k` sees `downloads(k)`. */
  method FetchHistoricalData(downloads: nat -> Option<Frame>, attempts: int, backoff: int)
    returns (rows: Option<seq<Bar>>, sleeps: seq<int>, tried: nat)
    ensures tried <= Max(attempts, 0) && (tried == 0 <==> attempts <= 0)
    ensures forall k :: 0 <= k < tried - 1 ==> downloads(k).None?
    ensures tried > 0 && downloads(tried - 1).Some? ==> rows == KeepHistory(downloads(tried - 1).value)
    ensures (tried == 0 || downloads(tried - 1).None?) ==> rows.None?
    ensures tried > 0 && downloads(tried - 1).None? ==> tried == attempts
    ensures sleeps == Retry.Schedule(backoff, Max(tried - 1, 0))
    ensures rows.Some? ==> |rows.value| <= TradingDays
    ensures rows.Some? ==> exists k :: 0 <= k < attempts && downloads(k).Some?
                                         && rows == KeepHistory(downloads(k).value)
    ensures |sleeps| < Max(attempts, 1)
    ensures forall k :: 0 <= k < |sleeps| ==> sleeps[k] == backoff * Retry.Pow2(k)
  {
    var attempt := (k: nat) => HistoryAttempt(downloads(k));
    rows, sleeps, tried := Retry.Run(attempt, attempts, backoff);
    forall k | 0 <= k < tried - 1 ensures downloads(k).None? {
      assert attempt(k).Raised?;
    }
    if tried > 0 {
      assert attempt(tried - 1).Raised? <==> downloads(tried - 1).None?;
    }
  }

  // ---------------------------------------------------------------------------
  // verify_yahoo_finance_match

  function CountTrue(bs: seq<bool>): (n: nat)
    ensures n <= |bs|
    ensures n == |bs| <==> forall i :: 0 <= i < |bs| ==> bs[i]
  {
    if |bs| == 0 then 0 else (if bs[0] then 1 else 0) + CountTrue(bs[1..])
  }

  /** 1 for a check that is made, 0 for one that is skipped. */
  function Flag(b: bool): nat {
    if b then 1 else 0
  }

  /** Both prices are truthy, so they are compared. */
  predicate PriceChecked(ours: PriceData, livePrice: Option<real>) {
    ours.price != 0.0 && Truthy(livePrice)
  }

  /** Both previous closes are truthy, so they are compared. */
  predicate PreviousChecked(ours: PriceData, previousClose: Option<real>) {
    Truthy(ours.previousClose) && Truthy(previousClose)
  }

  /** Both volumes are truthy, so they are compared. */
  predicate VolumeChecked(ours: PriceData, volume: Option<int>) {
    ours.volume.Some? && ours.volume.value != 0 && volume.Some? && volume.value != 0
  }

  /** The checks that apply: price, previous close and volume when both sides are truthy,
      and the market state always, in that order. */
  function MatchChecks(ours: PriceData, livePrice: Option<real>, previousClose: Option<real>,
                       volume: Option<int>, marketState: Option<string>): (cs: seq<bool>)
    ensures |cs| == Flag(PriceChecked(ours, livePrice)) + Flag(PreviousChecked(ours, previousClose))
                    + Flag(VolumeChecked(ours, volume)) + 1
    ensures PriceChecked(ours, livePrice) ==>
              (cs[0] <==> -0.01 < ours.price - livePrice.value < 0.01)
    ensures PreviousChecked(ours, previousClose) ==>
              var i := Flag(PriceChecked(ours, livePrice));
              (cs[i] <==> -0.01 < ours.previousClose.value - previousClose.value < 0.01)
    ensures VolumeChecked(ours, volume) ==>
              var i := Flag(PriceChecked(ours, livePrice)) + Flag(PreviousChecked(ours, previousClose));
              (cs[i] <==> -1000 < ours.volume.value - volume.value < 1000)
    ensures cs[|cs| - 1] <==> marketState == Some(ours.marketState)
  {
    var price := if PriceChecked(ours, livePrice)
                 then [Abs(ours.price - livePrice.value) < 0.01] else [];
    var prev := if PreviousChecked(ours, previousClose)
                then [Abs(ours.previousClose.value - previousClose.value) < 0.01] else [];
    var vol := if VolumeChecked(ours, volume)
               then [AbsInt(ours.volume.value - volume.value) < 1000] else [];
    price + prev + vol + [marketState == Some(ours.marketState)]
  }

  function AbsInt(x: int): int {
    if x < 0 then -x else x
  }

  /** `overall_match` and `match_percentage` over the checks. */
  function MatchSummary(checks: seq<bool>): (r: (bool, real))
    ensures r.0 <==> forall i :: 0 <= i < |checks| ==> checks[i]
    ensures |checks| == 0 ==> r.1 == 0.0
    ensures |checks| > 0 ==> r.1 * |checks| as real == CountTrue(checks) as real * 100.0
  {
    var all := CountTrue(checks) == |checks|;
    if |checks| == 0 then (all, 0.0)
    else (all, Percent(CountTrue(checks) as real, |checks| as real))
  }

  /** With at least one check, a perfect match is exactly a 100% score. */
  lemma PerfectIsHundred(checks: seq<bool>)
    requires |checks| > 0
    ensures MatchSummary(checks).0 <==> MatchSummary(checks).1 == 100.0
  {
    var n := |checks| as real;
    var t := CountTrue(checks) as real;
    assert MatchSummary(checks).1 == Percent(t, n);
    if CountTrue(checks) == |checks| {
      WholeIsHundred(n);
    }
    if Percent(t, n) == 100.0 {
      HundredIsWhole(t, n);
    }
  }

  lemma WholeIsHundred(n: real)
    requires n > 0.0
    ensures Percent(n, n) == 100.0
  {
    assert n / n == 1.0;
  }

  lemma HundredIsWhole(t: real, n: real)
    requires n > 0.0 && Percent(t, n) == 100.0
    ensures t == n
  {
    assert 100.0 * n == t * 100.0;
  }
}

=== FILE: database.dfy ===
/** The price store of stock/database.py. The `stock_daily` history table is unique on
    (ticker, date) and written with `REPLACE`; the `stock_latest` snapshot table holds one
    row per ticker. Both become maps keyed by their unique identity, and a manager without
    an engine is a store whose `connected` flag is false. */
module Database {
  import opened Common
  import opened Records
  import Text

  /** A `stock_daily` row: the bar's cells and the time the row was written. */
  datatype DailyRow = DailyRow(
    open: Option<real>,
    high: Option<real>,
    low: Option<real>,
    close: Option<real>,
    adjClose: Option<real>,
    volume: Option<int>,
    fetchedAt: Instant)

  /** A `stock_latest` row; the `price` column is nullable in the schema. */
  datatype LatestRow = LatestRow(
    price: Option<real>,
    bid: Option<real>,
    ask: Option<real>,
    timestamp: Instant,
    fetchedAt: Instant)

  /** The two tables, keyed by their unique identities, and whether an engine exists. */
  datatype Store = Store(
    connected: bool,
    daily: map<(Ticker, Date), DailyRow>,
    latest: map<Ticker, LatestRow>)

  /** The record `insert_historical_data` builds from one frame row. */
  function ToRow(b: Bar, now: Instant): DailyRow {
    DailyRow(b.open, b.high, b.low, b.close, b.adjClose, b.volume, now)
  }

  /** The position of the last bar of `bars` dated `d`: the bar whose `REPLACE` is the last
      to touch the row (t, d). */
  function LastIndexOn(bars: seq<Bar>, d: Date): (r: Option<nat>)
    ensures r.None? <==> forall i :: 0 <= i < |bars| ==> bars[i].date != d
    ensures r.Some? ==> r.value < |bars| && bars[r.value].date == d
    ensures r.Some? ==> forall j :: r.value < j < |bars| ==> bars[j].date != d
  {
    if |bars| == 0 then None
    else if bars[|bars| - 1].date == d then Some(|bars| - 1)
    else
      var front := bars[..|bars| - 1];
      assert forall i :: 0 <= i < |front| ==> front[i] == bars[i];
      LastIndexOn(front, d)
  }

  /** The last bar of `bars` dated `d`, if any. */
  function LastBarOn(bars: seq<Bar>, d: Date): Option<Bar> {
    match LastIndexOn(bars, d)
    case None => None
    case Some(i) => Some(bars[i])
  }

  /** `REPLACE INTO stock_daily` of every bar, in order. A key the bars do not touch keeps
      its row; a touched key holds the row of the last bar on that date. */
  function ReplaceRows(daily: map<(Ticker, Date), DailyRow>, t: Ticker, bars: seq<Bar>, now: Instant)
    : (r: map<(Ticker, Date), DailyRow>)
    ensures forall k :: k in r <==> k in daily || (k.0 == t && LastBarOn(bars, k.1).Some?)
    ensures forall k :: k in r && k.0 == t && LastBarOn(bars, k.1).Some? ==>
              r[k] == ToRow(LastBarOn(bars, k.1).value, now)
    ensures forall k :: k in r && !(k.0 == t && LastBarOn(bars, k.1).Some?) ==> r[k] == daily[k]
    decreases |bars|
  {
    if |bars| == 0 then daily
    else
      var b := bars[|bars| - 1];
      ReplaceRows(daily, t, bars[..|bars| - 1], now)[(t, b.date) := ToRow(b, now)]
  }

  /** `insert_historical_data`: without an engine nothing is written and the answer is
      False; otherwise every bar is written and the answer is True. */
  function InsertHistoricalData(s: Store, t: Ticker, bars: seq<Bar>, now: Instant): (r: (Store, bool))
    ensures !s.connected ==> r == (s, false)
    ensures s.connected ==> r.1 && r.0.connected && r.0.latest == s.latest
    ensures s.connected ==> forall i :: 0 <= i < |bars| ==> (t, bars[i].date) in r.0.daily
    ensures s.connected ==> forall d :: LastBarOn(bars, d).Some? ==>
              r.0.daily[(t, d)] == ToRow(LastBarOn(bars, d).value, now)
    ensures s.connected ==> forall k :: k in s.daily && (k.0 != t || LastBarOn(bars, k.1).None?) ==>
              k in r.0.daily && r.0.daily[k] == s.daily[k]
    ensures s.connected ==> forall k :: k in r.0.daily ==> k in s.daily || (k.0 == t && LastBarOn(bars, k.1).Some?)
  {
    if !s.connected then (s, false)
    else
      var daily := ReplaceRows(s.daily, t, bars, now);
      assert forall i :: 0 <= i < |bars| ==> LastBarOn(bars, bars[i].date).Some?;
      (s.(daily := daily), true)
  }

  /** Writing the same bars twice leaves the table as writing them once (at the later time). */
  lemma InsertTwiceIsInsertOnce(s: Store, t: Ticker, bars: seq<Bar>, now1: Instant, now2: Instant)
    ensures InsertHistoricalData(InsertHistoricalData(s, t, bars, now1).0, t, bars, now2)
            == InsertHistoricalData(s, t, bars, now2)
  {
    if s.connected {
      var once := InsertHistoricalData(s, t, bars, now2).0;
      var twice := InsertHistoricalData(InsertHistoricalData(s, t, bars, now1).0, t, bars, now2).0;
      assert twice.daily.Keys == once.daily.Keys;
      assert twice.daily == once.daily;
    }
  }

  /** The stored form of a bid or ask: a missing or falsy value (`0`) is stored as NULL. */
  function StoredQuoteSide(v: Option<real>): (r: Option<real>)
    ensures r.Some? <==> v.Some? && v.value != 0.0
    ensures r.Some? ==> r == v
  {
    if v.Some? && v.value != 0.0 then v else None
  }

  /** `update_latest_price`: `REPLACE INTO stock_latest` of one row. */
  function UpdateLatestPrice(s: Store, t: Ticker, q: PriceData, now: Instant): (r: (Store, bool))
    ensures !s.connected ==> r == (s, false)
    ensures s.connected ==> r.1 && r.0.connected && r.0.daily == s.daily
    ensures s.connected ==> r.0.latest.Keys == s.latest.Keys + {t}
    ensures s.connected ==> forall u :: u in s.latest && u != t ==> r.0.latest[u] == s.latest[u]
    ensures s.connected ==> r.0.latest[t].price == Some(q.price)
    ensures s.connected ==> r.0.latest[t].bid == StoredQuoteSide(q.bid)
    ensures s.connected ==> r.0.latest[t].ask == StoredQuoteSide(q.ask)
  {
    if !s.connected then (s, false)
    else
      var row := LatestRow(Some(q.price), StoredQuoteSide(q.bid), StoredQuoteSide(q.ask), q.timestamp, now);
      (s.(latest := s.latest[t := row]), true)
  }

  /** `get_current_price`: None without an engine, without a row, or with a NULL price. */
  function CurrentPrice(s: Store, t: Ticker): (r: Option<real>)
    ensures r.Some? <==> s.connected && t in s.latest && s.latest[t].price.Some?
    ensures r.Some? ==> r == s.latest[t].price
  {
    if s.connected && t in s.latest then s.latest[t].price else None
  }

  /** After an update, the price read back is the price written; other tickers read as before. */
  lemma UpdateThenReadPrice(s: Store, t: Ticker, q: PriceData, now: Instant, u: Ticker)
    requires s.connected
    ensures CurrentPrice(UpdateLatestPrice(s, t, q, now).0, t) == Some(q.price)
    ensures u != t ==> CurrentPrice(UpdateLatestPrice(s, t, q, now).0, u) == CurrentPrice(s, u)
  {
  }

  /** The dates of `t`'s rows whose close is not NULL. */
  function CloseDates(daily: map<(Ticker, Date), DailyRow>, t: Ticker): (ds: set<Date>)
    ensures forall d :: d in ds <==> (t, d) in daily && daily[(t, d)].close.Some?
  {
    var ds := set k | k in daily && k.0 == t && daily[k].close.Some? :: k.1;
    assert forall d :: (t, d) in daily && daily[(t, d)].close.Some? ==> d in ds by {
      forall d | (t, d) in daily && daily[(t, d)].close.Some? ensures d in ds {
        var k := (t, d);
        assert k.1 == d;
      }
    }
    ds
  }

  /** A set of dates is empty or has an element. (The generic `NonEmptyHasElement` speaks
      of boxed values, which the verifier does not connect to integer elements.) */
  lemma SomeDate(ds: set<Date>)
    ensures ds == {} || exists d :: d in ds
  {
    if forall d :: d !in ds {
      assert ds == {};
    }
  }

  /** A newest date of a non-empty set, found by picking any element and recursing. */
  ghost function NewestOf(ds: set<Date>): (m: Date)
    requires ds != {}
    ensures m in ds && forall d :: d in ds ==> d <= m
    decreases |ds|
  {
    SomeDate(ds);
    var x :| x in ds;
    var rest := ds - {x};
    assert forall d :: d in ds ==> d == x || d in rest;
    if rest == {} then x
    else
      var m := NewestOf(rest);
      if x > m then x else m
  }

  /** The newest date of a non-empty set. */
  function Newest(ds: set<Date>): (m: Date)
    requires ds != {}
    ensures m in ds && forall d :: d in ds ==> d <= m
  {
    assert NewestOf(ds) in ds;
    var m :| m in ds && forall d :: d in ds ==> d <= m;
    m
  }

  /** `r` lists exactly the dates of `ds`. */
  predicate Enumerates(r: seq<Date>, ds: set<Date>) {
    (forall i :: 0 <= i < |r| ==> r[i] in ds) && (forall d :: d in ds ==> d in r)
  }

  /** Dates strictly decrease from left to right. */
  predicate StrictlyDesc(r: seq<Date>) {
    forall i, j :: 0 <= i < j < |r| ==> r[i] > r[j]
  }

  /** The dates in `ORDER BY date DESC` order. */
  function NewestFirst(ds: set<Date>): (r: seq<Date>)
    ensures |r| == |ds|
    ensures Enumerates(r, ds)
    ensures StrictlyDesc(r)
    decreases |ds|
  {
    if ds == {} then []
    else
      var m := Newest(ds);
      var rest := NewestFirst(ds - {m});
      PrependNewest(ds, m, rest);
      [m] + rest
  }

  /** Putting the newest date in front of a descending enumeration of the others gives a
      descending enumeration of all. */
  lemma PrependNewest(ds: set<Date>, m: Date, rest: seq<Date>)
    requires m in ds && forall d :: d in ds ==> d <= m
    requires Enumerates(rest, ds - {m}) && StrictlyDesc(rest)
    ensures Enumerates([m] + rest, ds) && StrictlyDesc([m] + rest)
  {
    var r := [m] + rest;
    forall i | 0 <= i < |rest| ensures rest[i] < m && rest[i] in ds {
      assert rest[i] in ds - {m};
    }
    forall i | 0 <= i < |r| ensures r[i] in ds {
      if i > 0 {
        assert r[i] == rest[i - 1];
      }
    }
    forall d | d in ds ensures d in r {
      if d != m {
        assert d in ds - {m};
        var i :| 0 <= i < |rest| && rest[i] == d;
        assert r[i + 1] == d;
      }
    }
    forall i, j | 0 <= i < j < |r| ensures r[i] > r[j] {
      assert r[j] == rest[j - 1];
      if i > 0 {
        assert r[i] == rest[i - 1];
      }
    }
  }

  /** Every strictly descending enumeration of a set is the one `NewestFirst` gives, so
      `ORDER BY date DESC` has no ties to break for one ticker. */
  lemma {:induction false} NewestFirstUnique(ds: set<Date>, r: seq<Date>)
    requires Enumerates(r, ds) && StrictlyDesc(r)
    ensures r == NewestFirst(ds)
    decreases |r|
  {
    if |r| == 0 {
      assert forall d :: d !in ds;
      assert ds == {};
    } else {
      DropNewest(ds, r);
      NewestFirstUnique(ds - {r[0]}, r[1..]);
      assert NewestFirst(ds) == [r[0]] + NewestFirst(ds - {r[0]});
    }
  }

  /** The head of a strictly descending enumeration is the newest date, and the tail
      enumerates the rest in the same order. */
  lemma DropNewest(ds: set<Date>, r: seq<Date>)
    requires |r| > 0
    requires Enumerates(r, ds) && StrictlyDesc(r)
    ensures ds != {} && r[0] == Newest(ds)
    ensures Enumerates(r[1..], ds - {r[0]}) && StrictlyDesc(r[1..])
  {
    assert r[0] in ds;
    var m := Newest(ds);
    var i :| 0 <= i < |r| && r[i] == m;
    assert r[0] >= m;
    var tail := r[1..];
    forall j | 0 <= j < |tail| ensures tail[j] in ds - {r[0]} {
      assert tail[j] == r[j + 1];
      assert r[0] > r[j + 1];
    }
    forall d | d in ds - {r[0]} ensures d in tail {
      var j :| 0 <= j < |r| && r[j] == d;
      assert tail[j - 1] == d;
    }
    forall j, k | 0 <= j < k < |tail| ensures tail[j] > tail[k] {
      assert tail[j] == r[j + 1] && tail[k] == r[k + 1];
    }
  }

  /** The dates `ORDER BY date DESC LIMIT n` keeps, newest first. */
  function Window(daily: map<(Ticker, Date), DailyRow>, t: Ticker, n: int): seq<Date> {
    var all := NewestFirst(CloseDates(daily, t));
    all[..Min(Max(n, 0), |all|)]
  }

  /** The closes of the window, newest first. */
  function WindowCloses(daily: map<(Ticker, Date), DailyRow>, t: Ticker, n: int): (cs: seq<real>)
    ensures |cs| == |Window(daily, t, n)|
  {
    var w := Window(daily, t, n);
    seq(|w|, i requires 0 <= i < |w| => daily[(t, w[i])].close.value)
  }

  /** The window holds the newest `min(n, k)` dates with a close, `k` being their number:
      every date left out is older than every date kept. */
  lemma WindowIsNewest(daily: map<(Ticker, Date), DailyRow>, t: Ticker, n: int)
    ensures |Window(daily, t, n)| == Min(Max(n, 0), |CloseDates(daily, t)|)
    ensures forall i :: 0 <= i < |Window(daily, t, n)| ==> Window(daily, t, n)[i] in CloseDates(daily, t)
    ensures StrictlyDesc(Window(daily, t, n))
    ensures forall d, i :: d in CloseDates(daily, t) && d !in Window(daily, t, n) && 0 <= i < |Window(daily, t, n)|
              ==> d < Window(daily, t, n)[i]
  {
    var ds := CloseDates(daily, t);
    var all := NewestFirst(ds);
    DescendingPrefix(all, ds, Min(Max(n, 0), |all|));
  }

  /** A prefix of a descending enumeration holds dates of the set, descending, and every
      date of the set it leaves out is older than all it keeps. */
  lemma DescendingPrefix(all: seq<Date>, ds: set<Date>, k: nat)
    requires Enumerates(all, ds) && StrictlyDesc(all) && k <= |all|
    ensures forall i :: 0 <= i < k ==> all[..k][i] in ds
    ensures StrictlyDesc(all[..k])
    ensures forall d, i :: d in ds && d !in all[..k] && 0 <= i < k ==> d < all[..k][i]
  {
    var w := all[..k];
    forall d, i | d in ds && d !in w && 0 <= i < k ensures d < w[i] {
      forall j | 0 <= j < k ensures all[j] != d {
        assert w[j] == all[j];
      }
      var j :| 0 <= j < |all| && all[j] == d;
      assert w[i] == all[i];
    }
  }

  /** A shorter window is the newest part of a longer one (the 7-day window opens the 30-day). */
  lemma WindowNested(daily: map<(Ticker, Date), DailyRow>, t: Ticker, n: int, m: int)
    requires n <= m
    ensures Window(daily, t, n) <= Window(daily, t, m)
  {
  }

  /** `get_trading_day_averages`: `AVG(close)` over the window; None without an engine,
      and None when the window is empty (no close on record, or a limit below 1). */
  function TradingDayAverage(s: Store, t: Ticker, n: int): (r: Option<real>)
    ensures r.None? <==> !s.connected || n <= 0 || CloseDates(s.daily, t) == {}
    ensures r.Some? ==> r.value == Mean(WindowCloses(s.daily, t, n))
  {
    if !s.connected then None
    else
      var cs := WindowCloses(s.daily, t, n);
      if |cs| == 0 then None else Some(Mean(cs))
  }

  /** The average lies within any range that holds every close on record for the ticker. */
  lemma AverageWithinCloses(s: Store, t: Ticker, n: int, lo: real, hi: real)
    requires forall d :: d in CloseDates(s.daily, t) ==> lo <= s.daily[(t, d)].close.value <= hi
    ensures TradingDayAverage(s, t, n).Some? ==> lo <= TradingDayAverage(s, t, n).value <= hi
  {
    if TradingDayAverage(s, t, n).Some? {
      WindowIsNewest(s.daily, t, n);
      MeanBounds(WindowCloses(s.daily, t, n), lo, hi);
    }
  }

  /** `get_current_moving_averages`: `{}` without an engine, else one average per period. */
  function CurrentMovingAverages(s: Store, t: Ticker): (r: map<Period, Option<real>>)
    ensures !s.connected ==> r == map[]
    ensures s.connected ==> r.Keys == {P7, P30, P90}
    ensures s.connected ==> forall p :: p in r ==> r[p] == TradingDayAverage(s, t, p.Days())
  {
    if !s.connected then map[]
    else map p: Period | p in {P7, P30, P90} :: TradingDayAverage(s, t, p.Days())
  }

  /** A first ticker of a non-empty set in code-point order, found by picking any element
      and recursing. */
  ghost function FirstOf(ts: set<Ticker>): (m: Ticker)
    requires ts != {}
    ensures m in ts && forall x :: x in ts && x != m ==> Text.StrLess(m, x)
    decreases |ts|
  {
    NonEmptyHasElement(ts);
    var x :| x in ts;
    var rest := ts - {x};
    assert forall y :: y in ts ==> y == x || y in rest;
    if rest == {} then x
    else
      var m := FirstOf(rest);
      Text.StrLessTotal(x, m);
      if Text.StrLess(x, m) then
        assert forall y :: y in rest && y != m ==> Text.StrLess(x, y) by {
          forall y | y in rest && y != m ensures Text.StrLess(x, y) {
            Text.StrLessTransitive(x, m, y);
          }
        }
        x
      else m
  }

  /** The first ticker of a non-empty set in code-point order. */
  function FirstTicker(ts: set<Ticker>): (m: Ticker)
    requires ts != {}
    ensures m in ts && forall x :: x in ts && x != m ==> Text.StrLess(m, x)
  {
    assert FirstOf(ts) in ts;
    Text.StrLessAsymmetric();
    var m :| m in ts && forall x :: x in ts && x != m ==> Text.StrLess(m, x);
    m
  }

  /** `r` lists exactly the tickers of `ts`. */
  predicate ListsTickers(r: seq<Ticker>, ts: set<Ticker>) {
    (forall i :: 0 <= i < |r| ==> r[i] in ts) && (forall x :: x in ts ==> x in r)
  }

  /** Tickers strictly increase in code-point order from left to right. */
  predicate StrictlyAscending(r: seq<Ticker>) {
    forall i, j :: 0 <= i < j < |r| ==> Text.StrLess(r[i], r[j])
  }

  /** The tickers in `ORDER BY ticker` order. */
  function Ascending(ts: set<Ticker>): (r: seq<Ticker>)
    ensures |r| == |ts|
    ensures ListsTickers(r, ts)
    ensures StrictlyAscending(r)
    decreases |ts|
  {
    if ts == {} then []
    else
      var m := FirstTicker(ts);
      var rest := Ascending(ts - {m});
      PrependFirst(ts, m, rest);
      [m] + rest
  }

  /** Putting the first ticker in front of an ascending listing of the others gives an
      ascending listing of all. */
  lemma PrependFirst(ts: set<Ticker>, m: Ticker, rest: seq<Ticker>)
    requires m in ts && forall x :: x in ts && x != m ==> Text.StrLess(m, x)
    requires ListsTickers(rest, ts - {m}) && StrictlyAscending(rest)
    ensures ListsTickers([m] + rest, ts) && StrictlyAscending([m] + rest)
  {
    var r := [m] + rest;
    forall i | 0 <= i < |rest| ensures Text.StrLess(m, rest[i]) && rest[i] in ts {
      assert rest[i] in ts - {m};
    }
    forall i | 0 <= i < |r| ensures r[i] in ts {
      if i > 0 {
        assert r[i] == rest[i - 1];
      }
    }
    forall x | x in ts ensures x in r {
      if x != m {
        assert x in ts - {m};
        var i :| 0 <= i < |rest| && rest[i] == x;
        assert r[i + 1] == x;
      }
    }
    forall i, j | 0 <= i < j < |r| ensures Text.StrLess(r[i], r[j]) {
      assert r[j] == rest[j - 1];
      if i > 0 {
        assert r[i] == rest[i - 1];
      }
    }
  }

  /** The tickers that have at least one `stock_daily` row. */
  function TickersOf(daily: map<(Ticker, Date), DailyRow>): (ts: set<Ticker>)
    ensures forall k :: k in daily ==> k.0 in ts
    ensures forall x :: x in ts ==> exists k :: k in daily && k.0 == x
  {
    set k | k in daily :: k.0
  }

  /** `get_all_tickers`: the distinct tickers of `stock_daily`, ascending; `[]` without an engine. */
  function AllTickers(s: Store): (r: seq<Ticker>)
    ensures !s.connected ==> r == []
    ensures s.connected ==> ListsTickers(r, TickersOf(s.daily))
    ensures StrictlyAscending(r)
  {
    if !s.connected then [] else Ascending(TickersOf(s.daily))
  }
}

=== FILE: market_hours.dfy ===
/** `_is_market_open` of stock/alerts.py with the clock passed in: the UTC reading is moved
    to a fixed European offset, +2 between fixed dates in spring and autumn and +1
    otherwise, and the market counts as open from 09:00 to 17:30 local time inclusive. */
module MarketHours {

  /** A UTC clock reading, field by field as Python's `datetime` holds it. */
  datatype DateTime = DateTime(
    year: int, month: int, day: int,
    hour: int, minute: int, second: int, microsecond: int)

  /** The fields are in their ranges (the day is only bounded by 31, as the comparison
      below does not depend on month lengths). */
  predicate Valid(t: DateTime) {
    1 <= t.month <= 12 && 1 <= t.day <= 31
    && 0 <= t.hour < 24 && 0 <= t.minute < 60 && 0 <= t.second < 60
    && 0 <= t.microsecond < 1_000_000
  }

  const MinuteUs: int := 60_000_000
  const HourUs: int := 3_600_000_000
  const DayUs: int := 86_400_000_000

  /** Microseconds since midnight. */
  function TimeOfDay(hour: int, minute: int, second: int, microsecond: int): int {
    hour * HourUs + minute * MinuteUs + second * 1_000_000 + microsecond
  }

  /** `a <= b` for two readings of the same year: Python compares them field by field. */
  predicate NotAfter(a: DateTime, b: DateTime) {
    if a.month != b.month then a.month < b.month
    else if a.day != b.day then a.day < b.day
    else if a.hour != b.hour then a.hour < b.hour
    else if a.minute != b.minute then a.minute < b.minute
    else if a.second != b.second then a.second < b.second
    else a.microsecond <= b.microsecond
  }

  /** `now.replace(month=3, day=31, hour=2, minute=0, second=0, microsecond=0)`. */
  function SummerStart(now: DateTime): DateTime {
    DateTime(now.year, 3, 31, 2, 0, 0, 0)
  }

  /** `now.replace(month=10, day=31, hour=3, minute=0, second=0, microsecond=0)`. */
  function SummerEnd(now: DateTime): DateTime {
    DateTime(now.year, 10, 31, 3, 0, 0, 0)
  }

  /** The hours added to UTC: 2 from 31 March 02:00 to 31 October 03:00 inclusive, else 1. */
  function UtcOffset(now: DateTime): (h: int)
    ensures h == 1 || h == 2
  {
    if NotAfter(SummerStart(now), now) && NotAfter(now, SummerEnd(now)) then 2 else 1
  }

  /** The summer offset holds exactly on the days strictly between 31 March and 31 October,
      on 31 March from 02:00, and on 31 October up to 03:00:00.000000. */
  lemma SummerWindow(now: DateTime)
    requires Valid(now)
    ensures UtcOffset(now) == 2 <==>
              (3 < now.month < 10)
              || (now.month == 3 && now.day == 31 && now.hour >= 2)
              || (now.month == 10 && now.day < 31)
              || (now.month == 10 && now.day == 31
                  && TimeOfDay(now.hour, now.minute, now.second, now.microsecond) <= 3 * HourUs)
  {
  }

  /** The local time of day: the UTC time of day moved by the offset, wrapping at midnight
      (the date may change, the time of day is all that is compared). */
  function LocalTimeOfDay(now: DateTime): (tod: int)
    requires Valid(now)
    ensures 0 <= tod < DayUs
  {
    TimeOfDay((now.hour + UtcOffset(now)) % 24, now.minute, now.second, now.microsecond)
  }

  /** The market is open between 09:00 and 17:30 local time, both ends included. */
  function IsMarketOpen(now: DateTime): (open: bool)
    requires Valid(now)
    ensures open <==> TimeOfDay(9, 0, 0, 0) <= LocalTimeOfDay(now) <= TimeOfDay(17, 30, 0, 0)
  {
    var local := LocalTimeOfDay(now);
    9 * HourUs <= local <= 17 * HourUs + 30 * MinuteUs
  }

  /** In UTC the session runs 07:00-15:30 under the summer offset and 08:00-16:30 otherwise;
      it never straddles midnight. */
  lemma SessionInUtc(now: DateTime)
    requires Valid(now)
    ensures var utc := TimeOfDay(now.hour, now.minute, now.second, now.microsecond);
            IsMarketOpen(now) <==>
              if UtcOffset(now) == 2 then 7 * HourUs <= utc <= 15 * HourUs + 30 * MinuteUs
              else 8 * HourUs <= utc <= 16 * HourUs + 30 * MinuteUs
  {
    var off := UtcOffset(now);
    var h := (now.hour + off) % 24;
    if now.hour + off < 24 {
      assert h == now.hour + off;
    } else {
      assert h == now.hour + off - 24;
    }
  }

  /** Mid-June at noon UTC is summer time and open; New Year's Day at noon UTC is winter
      time and open; 16:00 UTC is closed in summer but open in winter. */
  lemma Examples()
    ensures IsMarketOpen(DateTime(2024, 6, 14, 12, 0, 0, 0))
    ensures UtcOffset(DateTime(2024, 6, 14, 12, 0, 0, 0)) == 2
    ensures UtcOffset(DateTime(2024, 1, 1, 12, 0, 0, 0)) == 1
    ensures !IsMarketOpen(DateTime(2024, 6, 14, 16, 0, 0, 0))
    ensures IsMarketOpen(DateTime(2024, 1, 15, 16, 0, 0, 0))
  {
  }
}

=== FILE: monitor.dfy ===
/** The decisions of stock/main.py around the monitoring loop: the database connect
    retry at start-up, the interval of the real-time job, and the update list handed to
    the real-time message. */
module Monitor {
  import opened Common
  import opened Records
  import Retry
  import Alerts

  // ---------------------------------------------------------------------------
  // _initialize_database

  const ConnectAttempts: int := 5
  const FirstDelay: int := 2

  /** How start-up ends. */
  datatype Startup = Ready | ConnectFailed | TablesFailed

  /** The connect loop: up to five attempts (`connect(k)` says whether attempt `k`
      succeeds; a raise counts as a failure), sleeping 2, 4, 8 and 16 seconds between them;
      after the fifth failure start-up fails. Once connected, the tables must be created. */
  method InitializeDatabase(connect: nat -> bool, tablesCreated: bool)
    returns (outcome: Startup, sleeps: seq<int>)
    ensures sleeps <= [2, 4, 8, 16]
    ensures outcome == ConnectFailed <==> forall k :: 0 <= k < 5 ==> !connect(k)
    ensures outcome == ConnectFailed ==> sleeps == [2, 4, 8, 16]
    ensures outcome != ConnectFailed ==>
              connect(|sleeps|) && forall k :: 0 <= k < |sleeps| ==> !connect(k)
    ensures outcome != ConnectFailed ==> (outcome == Ready <==> tablesCreated)
  {
    var attempt := (k: nat) => if connect(k) then Retry.Returned(Some(())) else Retry.Raised;
    var value, tried;
    value, sleeps, tried := Retry.Run(attempt, ConnectAttempts, FirstDelay);
    ScheduleOfConnect();
    assert sleeps == Retry.Schedule(2, tried - 1);
    assert sleeps <= [2, 4, 8, 16] by {
      assert Retry.Schedule(2, tried - 1) == Retry.Schedule(2, 4)[..tried - 1];
    }
    forall k | 0 <= k < tried - 1 ensures !connect(k) {
      assert attempt(k).Raised?;
    }
    if value.None? {
      assert !connect(tried - 1);
      assert tried == 5;
      outcome := ConnectFailed;
    } else {
      assert connect(tried - 1);
      outcome := if tablesCreated then Ready else TablesFailed;
    }
  }

  /** The doubling delays starting at 2 seconds, for four waits. */
  lemma ScheduleOfConnect()
    ensures Retry.Schedule(2, 4) == [2, 4, 8, 16]
  {
    assert Retry.Pow2(1) == 2 && Retry.Pow2(2) == 4 && Retry.Pow2(3) == 8;
  }

  // ---------------------------------------------------------------------------
  // _setup_scheduler

  /** The `schedule` section of the configuration: `real_time_monitoring` (missing is
      false) and `real_time_interval` (missing is `None`). */
  datatype ScheduleConfig = ScheduleConfig(realTimeMonitoring: bool, realTimeInterval: Option<int>)

  const DefaultInterval: int := 5

  /** Minutes between two runs of the real-time job. */
  function MonitoringInterval(cfg: ScheduleConfig): (minutes: int)
    ensures !cfg.realTimeMonitoring ==> minutes == DefaultInterval
    ensures cfg.realTimeInterval.None? ==> minutes == DefaultInterval
    ensures cfg.realTimeMonitoring && cfg.realTimeInterval.Some? ==> minutes == cfg.realTimeInterval.value
  {
    if cfg.realTimeMonitoring then cfg.realTimeInterval.GetOr(DefaultInterval) else DefaultInterval
  }

  // ---------------------------------------------------------------------------
  // run_real_time_monitoring: the update list

  /** A ticker has a quote in the fetched prices. */
  predicate Quoted(prices: map<Ticker, Option<PriceData>>, t: Ticker) {
    t in prices && prices[t].Some?
  }

  /** The update built from one quote; the quote's `previous_close` key is always present
      (possibly `None`), so it is taken as it is. */
  function UpdateOf(t: Ticker, d: PriceData): StockUpdate {
    StockUpdate(t, d.price, d.previousClose, d.timestamp)
  }

  /** The monitored tickers that have a quote, in order. */
  function QuotedTickers(tickers: seq<Ticker>, prices: map<Ticker, Option<PriceData>>): (qs: seq<Ticker>)
    ensures |qs| <= |tickers|
    ensures forall t :: t in qs <==> t in tickers && Quoted(prices, t)
    ensures IsSubsequence(qs, tickers)
    ensures forall t :: multiset(qs)[t] == if Quoted(prices, t) then multiset(tickers)[t] else 0
  {
    if |tickers| == 0 then []
    else
      var rest := QuotedTickers(tickers[1..], prices);
      assert forall t :: t in tickers <==> t == tickers[0] || t in tickers[1..];
      assert tickers == [tickers[0]] + tickers[1..];
      if Quoted(prices, tickers[0]) then
        assert ([tickers[0]] + rest)[1..] == rest;
        [tickers[0]] + rest
      else
        SubsequenceSkip(rest, tickers);
        rest
  }

  /** One update per quoted ticker, in ticker order, carrying that quote's price, previous
      close and timestamp. */
  function BuildStockUpdates(tickers: seq<Ticker>, prices: map<Ticker, Option<PriceData>>)
    : (us: seq<StockUpdate>)
    ensures |us| == |QuotedTickers(tickers, prices)|
    ensures forall i :: 0 <= i < |us| ==>
              var t := QuotedTickers(tickers, prices)[i];
              Quoted(prices, t) && us[i] == UpdateOf(t, prices[t].value)
    ensures forall t :: t in tickers && Quoted(prices, t) ==> UpdateOf(t, prices[t].value) in us
  {
    var qs := QuotedTickers(tickers, prices);
    assert forall i :: 0 <= i < |qs| ==> qs[i] in qs && Quoted(prices, qs[i]);
    var us := seq(|qs|, i requires 0 <= i < |qs| => UpdateOf(qs[i], prices[qs[i]].value));
    assert forall t :: t in tickers && Quoted(prices, t) ==> UpdateOf(t, prices[t].value) in us by {
      forall t | t in tickers && Quoted(prices, t) ensures UpdateOf(t, prices[t].value) in us {
        var i :| 0 <= i < |qs| && qs[i] == t;
        assert us[i] == UpdateOf(t, prices[t].value);
      }
    }
    us
  }

  /** The real-time summary can be computed exactly when every quoted ticker has a
      previous close; otherwise the update is not sent. */
  lemma SummaryNeedsPreviousCloses(tickers: seq<Ticker>, prices: map<Ticker, Option<PriceData>>)
    ensures Alerts.MarketSummary(BuildStockUpdates(tickers, prices)).Some?
            <==> forall t :: t in tickers && Quoted(prices, t) ==> prices[t].value.previousClose.Some?
  {
    var us := BuildStockUpdates(tickers, prices);
    var qs := QuotedTickers(tickers, prices);
    if Alerts.AllPrevious(us) {
      forall t | t in tickers && Quoted(prices, t) ensures prices[t].value.previousClose.Some? {
        var i :| 0 <= i < |qs| && qs[i] == t;
        assert us[i].previousPrice.Some?;
      }
    }
    if forall t :: t in tickers && Quoted(prices, t) ==> prices[t].value.previousClose.Some? {
      forall i | 0 <= i < |us| ensures us[i].previousPrice.Some? {
        assert qs[i] in qs;
      }
    }
  }
}

=== FILE: records.dfy ===
/** The two record shapes the fetcher hands to the store and to the monitor: one row of
    the daily price frame (stock/data_fetcher.py), and the price dictionary built by
    `fetch_current_price`. */
module Records {
  import opened Common

  /** A ticker symbol such as `TSLA`. */
  type Ticker = string

  /** A trading date, as a day number. */
  type Date = int

  /** A point in time, as seconds since an epoch. */
  type Instant = int

  /** One row of the daily OHLCV frame, indexed by its date; a NaN cell is `None`. */
  datatype Bar = Bar(
    date: Date,
    open: Option<real>,
    high: Option<real>,
    low: Option<real>,
    close: Option<real>,
    adjClose: Option<real>,
    volume: Option<int>)

  /** The price dictionary: every key is always present, some values may be `None`. */
  datatype PriceData = PriceData(
    price: real,
    previousClose: Option<real>,
    bid: Option<real>,
    ask: Option<real>,
    volume: Option<int>,
    marketCap: Option<real>,
    marketState: string,
    isMarketOpen: bool,
    timestamp: Instant)

  /** One entry of the real-time update list built by the monitor: `previousPrice` is the
      quote's previous close, which may be missing. */
  datatype StockUpdate = StockUpdate(
    ticker: Ticker,
    currentPrice: real,
    previousPrice: Option<real>,
    timestamp: Instant)

  /** The three averaging windows, in trading days; the source spells their keys
      `average_7` / `7_day` and so on. */
  datatype Period = P7 | P30 | P90 {
    function Days(): (n: int)
      ensures n > 0
    {
      match this
      case P7 => 7
      case P30 => 30
      case P90 => 90
    }
  }

  /** The periods in the order the source visits them. */
  const Periods: seq<Period> := [P7, P30, P90]

  /** The list names every period, in ascending length. */
  lemma PeriodsComplete()
    ensures forall p: Period :: p in Periods
    ensures forall i, j :: 0 <= i < j < |Periods| ==> Periods[i].Days() < Periods[j].Days()
  {
    forall p: Period ensures p in Periods {
      match p
      case P7 => assert Periods[0] == p;
      case P30 => assert Periods[1] == p;
      case P90 => assert Periods[2] == p;
    }
  }
}

=== FILE: retry.dfy ===
/** The retry-with-doubling-delay loop the source writes three times: `fetch_historical_data`
    and `fetch_current_price` in stock/data_fetcher.py, and the database connect in
    stock/main.py. Sleeping is not performed; the delays are returned in order. */
module Retry {
  import opened Common

  /** What one attempt does: it returns a value (possibly `None`), which ends the loop, or
      raises, which asks for another attempt. */
  datatype Outcome<T> = Returned(result: Option<T>) | Raised

  function Pow2(k: nat): (p: nat)
    ensures p >= 1
  {
    if k == 0 then 1 else 2 * Pow2(k - 1)
  }

  /** The delays `backoff * 2**k` for `k = 0 .. n-1`. */
  function Schedule(backoff: int, n: nat): (ds: seq<int>)
    ensures |ds| == n
    ensures forall k :: 0 <= k < n ==> ds[k] == backoff * Pow2(k)
  {
    seq(n, k requires 0 <= k < n => backoff * Pow2(k))
  }

  /** Sum of a sequence of integers, accumulated from the back. */
  function Total(xs: seq<int>): int {
    if |xs| == 0 then 0 else Total(xs[..|xs| - 1]) + xs[|xs| - 1]
  }

  /** `for k in range(attempts)`: attempt `k` runs; a return ends the loop with its value;
      a raise sleeps `backoff * 2**k` and tries again, except after the last attempt, which
      gives up with `None` and does not sleep. */
  method Run<T>(attempt: nat -> Outcome<T>, attempts: int, backoff: int)
    returns (value: Option<T>, sleeps: seq<int>, tried: nat)
    ensures tried <= Max(attempts, 0)
    ensures tried == 0 <==> attempts <= 0
    ensures tried == 0 ==> value.None?
    ensures forall k :: 0 <= k < tried - 1 ==> attempt(k).Raised?
    ensures tried > 0 && attempt(tried - 1).Returned? ==> value == attempt(tried - 1).result
    ensures tried > 0 && attempt(tried - 1).Raised? ==> value.None? && tried == attempts
    ensures sleeps == Schedule(backoff, Max(tried - 1, 0))
  {
    value, sleeps, tried := None, [], 0;
    var k := 0;
    while k < attempts
      invariant 0 <= k <= Max(attempts, 0)
      invariant attempts > 0 ==> k < attempts
      invariant tried == k
      invariant forall j :: 0 <= j < k ==> attempt(j).Raised?
      invariant sleeps == Schedule(backoff, k)
      invariant value.None?
    {
      tried := k + 1;
      match attempt(k) {
        case Returned(r) =>
          value := r;
          return;
        case Raised =>
          if k == attempts - 1 {
            return;
          }
          sleeps := sleeps + [backoff * Pow2(k)];
          assert sleeps == Schedule(backoff, k + 1);
      }
      k := k + 1;
    }
  }

  /** The delays add up to `backoff * (2**n - 1)`. */
  lemma {:induction false} TotalWait(backoff: int, n: nat)
    ensures Total(Schedule(backoff, n)) == backoff * (Pow2(n) - 1)
  {
    if n > 0 {
      var ds := Schedule(backoff, n);
      var p := Pow2(n - 1);
      TotalWait(backoff, n - 1);
      assert ds[..n - 1] == Schedule(backoff, n - 1);
      assert Total(ds) == backoff * (p - 1) + backoff * p;
      Doubling(backoff, p);
    }
  }

  lemma Doubling(b: int, p: int)
    ensures b * (p - 1) + b * p == b * (2 * p - 1)
  {
  }
}

=== FILE: sorting.dfy ===
/** Python's `list.sort(key=..., reverse=True)` on a sequence: a stable sort into
    descending key order. The source uses it three times: alert details by percentage
    gap, real-time movers by absolute change, and tickers by market capitalisation. */
module Sorting {

  /** Keys never increase from left to right. */
  predicate SortedDesc<T>(xs: seq<T>, key: T -> real) {
    forall i, j :: 0 <= i < j < |xs| ==> key(xs[i]) >= key(xs[j])
  }

  /** The elements of `xs` whose key is `v`, in their order in `xs`. Two sequences with
      the same `KeyClass` for every `v` keep equal-keyed elements in the same order. */
  function KeyClass<T>(xs: seq<T>, key: T -> real, v: real): seq<T> {
    if |xs| == 0 then []
    else (if key(xs[0]) == v then [xs[0]] else []) + KeyClass(xs[1..], key, v)
  }

  /** Inserts `x` in front of the first element whose key does not exceed its own, so
      that `x` precedes every element of `ys` that has the same key. */
  function InsertDesc<T>(x: T, ys: seq<T>, key: T -> real): (r: seq<T>)
    requires SortedDesc(ys, key)
    ensures SortedDesc(r, key)
    ensures multiset(r) == multiset(ys) + multiset{x}
    ensures |r| == |ys| + 1
  {
    if |ys| == 0 || key(ys[0]) <= key(x) then [x] + ys
    else
      var rest := InsertDesc(x, ys[1..], key);
      assert ys == [ys[0]] + ys[1..];
      assert forall i :: 0 <= i < |rest| ==> key(rest[i]) <= key(ys[0]) by {
        forall i | 0 <= i < |rest| ensures key(rest[i]) <= key(ys[0]) {
          assert rest[i] in multiset(rest);
          if rest[i] != x {
            assert rest[i] in multiset(ys[1..]);
            var j :| 0 <= j < |ys[1..]| && ys[1..][j] == rest[i];
            assert ys[j + 1] == rest[i];
          }
        }
      }
      [ys[0]] + rest
  }

  /** Stable descending insertion sort. */
  function SortDesc<T>(xs: seq<T>, key: T -> real): (r: seq<T>)
    ensures SortedDesc(r, key)
    ensures multiset(r) == multiset(xs)
    ensures |r| == |xs|
  {
    if |xs| == 0 then []
    else
      assert xs == [xs[0]] + xs[1..];
      InsertDesc(xs[0], SortDesc(xs[1..], key), key)
  }

  /** Inserting `x` adds it at the front of its own key class and leaves the others alone. */
  lemma {:induction false} InsertDescClass<T>(x: T, ys: seq<T>, key: T -> real, v: real)
    requires SortedDesc(ys, key)
    ensures KeyClass(InsertDesc(x, ys, key), key, v)
            == (if key(x) == v then [x] else []) + KeyClass(ys, key, v)
  {
    if |ys| == 0 || key(ys[0]) <= key(x) {
      assert ([x] + ys)[1..] == ys;
    } else {
      var rest := InsertDesc(x, ys[1..], key);
      assert ([ys[0]] + rest)[1..] == rest;
      InsertDescClass(x, ys[1..], key, v);
      if key(x) == v {
        assert key(ys[0]) != v;
        // every element of ys[1..] ahead of x's slot in rest has a key above v
        assert KeyClass(ys, key, v) == KeyClass(ys[1..], key, v);
      } else {
        assert ys == [ys[0]] + ys[1..];
      }
    }
  }

  /** The sort is stable: within every key class the order of `xs` is kept. */
  lemma {:induction false} SortDescStable<T>(xs: seq<T>, key: T -> real, v: real)
    ensures KeyClass(SortDesc(xs, key), key, v) == KeyClass(xs, key, v)
  {
    if |xs| > 0 {
      SortDescStable(xs[1..], key, v);
      InsertDescClass(xs[0], SortDesc(xs[1..], key), key, v);
    }
  }

  /** The head of the sorted sequence carries the largest key, and it is the first element
      of `xs` that carries it. */
  lemma SortDescHead<T>(xs: seq<T>, key: T -> real) returns (k: nat)
    requires |xs| > 0
    ensures k < |xs| && SortDesc(xs, key)[0] == xs[k]
    ensures forall j :: 0 <= j < |xs| ==> key(xs[j]) <= key(xs[k])
    ensures forall j :: 0 <= j < k ==> key(xs[j]) < key(xs[k])
  {
    var r := SortDesc(xs, key);
    var m := key(r[0]);
    forall j | 0 <= j < |xs| ensures key(xs[j]) <= m {
      assert xs[j] in multiset(r);
    }
    assert r[0] in multiset(xs);
    SortDescStable(xs, key, m);
    k := FirstWithKey(xs, key, m);
    KeyClassHead(r, key, m);
  }

  /** Index of the first element of `xs` whose key is `v`, whose class then starts with it. */
  lemma {:induction false} FirstWithKey<T>(xs: seq<T>, key: T -> real, v: real) returns (k: nat)
    requires exists j :: 0 <= j < |xs| && key(xs[j]) == v
    ensures k < |xs| && key(xs[k]) == v
    ensures forall j :: 0 <= j < k ==> key(xs[j]) != v
    ensures KeyClass(xs, key, v) != [] && KeyClass(xs, key, v)[0] == xs[k]
  {
    if key(xs[0]) == v {
      k := 0;
    } else {
      var j :| 0 <= j < |xs| && key(xs[j]) == v;
      assert j > 0 && key(xs[1..][j - 1]) == v;
      var k' := FirstWithKey(xs[1..], key, v);
      k := k' + 1;
    }
  }

  /** A sequence whose head has key `v` starts its class with that head. */
  lemma KeyClassHead<T>(xs: seq<T>, key: T -> real, v: real)
    requires |xs| > 0 && key(xs[0]) == v
    ensures KeyClass(xs, key, v) != [] && KeyClass(xs, key, v)[0] == xs[0]
  {
  }
}

=== FILE: text.dfy ===
/** Python string operations the source relies on: `str.lower()` (on ASCII letters),
    the `in` substring test, `str.replace`, and the code-point ordering of strings. */
module Text {

  /** `c.lower()` for ASCII; other characters are left as they are. */
  function LowerChar(c: char): char {
    if 'A' <= c <= 'Z' then (c as int + 32) as char else c
  }

  /** `s.lower()`, ASCII letters only. */
  function Lower(s: string): (r: string)
    ensures |r| == |s|
    ensures forall i :: 0 <= i < |s| ==> r[i] == LowerChar(s[i])
  {
    seq(|s|, i requires 0 <= i < |s| => LowerChar(s[i]))
  }

  /** `sub` occurs in `s` at index `i`. */
  predicate OccursAt(s: string, sub: string, i: int) {
    0 <= i && i + |sub| <= |s| && s[i..i + |sub|] == sub
  }

  /** Python's `sub in s`. */
  function Contains(s: string, sub: string): (b: bool)
    ensures b <==> exists i :: OccursAt(s, sub, i)
    decreases |s|
  {
    if |s| < |sub| then
      assert forall i :: !OccursAt(s, sub, i);
      false
    else if s[..|sub|] == sub then
      assert OccursAt(s, sub, 0);
      true
    else
      var b := Contains(s[1..], sub);
      assert forall i :: OccursAt(s[1..], sub, i) <==> OccursAt(s, sub, i + 1) by {
        forall i ensures OccursAt(s[1..], sub, i) <==> OccursAt(s, sub, i + 1) {
          if 0 <= i && i + |sub| <= |s[1..]| {
            assert s[1..][i..i + |sub|] == s[i + 1..i + 1 + |sub|];
          }
        }
      }
      assert b ==> exists i :: OccursAt(s, sub, i) by {
        if b {
          var i :| OccursAt(s[1..], sub, i);
          assert OccursAt(s, sub, i + 1);
        }
      }
      assert (exists i :: OccursAt(s, sub, i)) ==> b by {
        if exists i :: OccursAt(s, sub, i) {
          var i :| OccursAt(s, sub, i);
          assert i != 0;
          assert OccursAt(s[1..], sub, i - 1);
        }
      }
      b
  }

  /** Python's `s.replace(pat, rep)` for a non-empty `pat`: occurrences are found from the
      left, do not overlap, and are all replaced. */
  function Replace(s: string, pat: string, rep: string): string
    requires |pat| > 0
    decreases |s|
  {
    if |s| < |pat| then s
    else if s[..|pat|] == pat then rep + Replace(s[|pat|..], pat, rep)
    else [s[0]] + Replace(s[1..], pat, rep)
  }

  /** Python's `s.split(pat)`: the pieces between the occurrences `Replace` rewrites. */
  function Split(s: string, pat: string): (pieces: seq<string>)
    requires |pat| > 0
    ensures |pieces| > 0
    decreases |s|
  {
    if |s| < |pat| then [s]
    else if s[..|pat|] == pat then [""] + Split(s[|pat|..], pat)
    else
      var p := Split(s[1..], pat);
      [[s[0]] + p[0]] + p[1..]
  }

  /** Python's `sep.join(pieces)`. */
  function Join(pieces: seq<string>, sep: string): string
    requires |pieces| > 0
  {
    if |pieces| == 1 then pieces[0] else pieces[0] + sep + Join(pieces[1..], sep)
  }

  /** Joining the pieces of a split with the separator gives back the string. */
  lemma {:induction false} SplitJoin(s: string, pat: string)
    requires |pat| > 0
    ensures Join(Split(s, pat), pat) == s
    decreases |s|
  {
    if |s| < |pat| {
    } else if s[..|pat|] == pat {
      var q := Split(s[|pat|..], pat);
      SplitJoin(s[|pat|..], pat);
      assert ([""] + q)[1..] == q;
      assert Join([""] + q, pat) == "" + pat + Join(q, pat);
      assert s == pat + s[|pat|..];
    } else {
      var p := Split(s[1..], pat);
      SplitJoin(s[1..], pat);
      JoinHead(p, [s[0]], pat);
      assert s == [s[0]] + s[1..];
    }
  }

  /** `str.replace` puts `rep` exactly where the split found `pat`. */
  lemma {:induction false} ReplaceIsJoinOfSplit(s: string, pat: string, rep: string)
    requires |pat| > 0
    ensures Replace(s, pat, rep) == Join(Split(s, pat), rep)
    decreases |s|
  {
    if |s| < |pat| {
    } else if s[..|pat|] == pat {
      ReplaceIsJoinOfSplit(s[|pat|..], pat, rep);
    } else {
      ReplaceIsJoinOfSplit(s[1..], pat, rep);
      JoinHead(Split(s[1..], pat), [s[0]], rep);
    }
  }

  /** No piece of a split contains the separator. */
  lemma {:induction false} SplitPiecesFree(s: string, pat: string)
    requires |pat| > 0
    ensures forall k :: 0 <= k < |Split(s, pat)| ==> !Contains(Split(s, pat)[k], pat)
    decreases |s|
  {
    if |s| < |pat| {
    } else if s[..|pat|] == pat {
      SplitPiecesFree(s[|pat|..], pat);
      assert forall k :: 1 <= k < |Split(s, pat)| ==> Split(s, pat)[k] == Split(s[|pat|..], pat)[k - 1];
    } else {
      var p := Split(s[1..], pat);
      SplitPiecesFree(s[1..], pat);
      SplitHeadIsPrefix(s[1..], pat);
      var h := [s[0]] + p[0];
      assert h <= s;
      if |pat| <= |h| {
        assert h[..|pat|] == s[..|pat|];
      }
      forall i | 0 < i && i + |pat| <= |h| ensures !OccursAt(h, pat, i) {
        assert h[i..i + |pat|] == p[0][i - 1..i - 1 + |pat|];
        assert !OccursAt(p[0], pat, i - 1);
      }
      assert !Contains(h, pat);
      assert Split(s, pat) == [h] + p[1..];
    }
  }

  /** The first piece of a split is a prefix of the string. */
  lemma {:induction false} SplitHeadIsPrefix(s: string, pat: string)
    requires |pat| > 0
    ensures Split(s, pat)[0] <= s
    decreases |s|
  {
    if |s| < |pat| {
    } else if s[..|pat|] == pat {
    } else {
      SplitHeadIsPrefix(s[1..], pat);
    }
  }

  /** When `pat` occurs, the first piece is followed by `pat` itself: it ends at the first
      occurrence. */
  lemma {:induction false} SplitHeadThenPattern(s: string, pat: string)
    requires |pat| > 0
    requires Contains(s, pat)
    ensures Split(s, pat)[0] + pat <= s
    decreases |s|
  {
    if s[..|pat|] == pat {
      assert Split(s, pat)[0] == "";
      assert pat == s[..|pat|];
    } else {
      SplitHeadThenPattern(s[1..], pat);
      var h := Split(s[1..], pat)[0];
      assert Split(s, pat)[0] + pat == [s[0]] + (h + pat);
      assert s == [s[0]] + s[1..];
    }
  }

  /** A string that does not contain `pat` is its own and only piece. */
  lemma {:induction false} SplitAbsent(s: string, pat: string)
    requires |pat| > 0
    requires !Contains(s, pat)
    ensures Split(s, pat) == [s]
    decreases |s|
  {
    if |s| < |pat| {
    } else {
      assert !OccursAt(s, pat, 0);
      forall i | 0 <= i && i + |pat| <= |s| - 1 ensures !OccursAt(s[1..], pat, i) {
        assert s[1..][i..i + |pat|] == s[i + 1..i + 1 + |pat|];
        assert !OccursAt(s, pat, i + 1);
      }
      SplitAbsent(s[1..], pat);
      assert s == [s[0]] + s[1..];
    }
  }

  /** Replacing a string that does not occur changes nothing. */
  lemma ReplaceAbsent(s: string, pat: string, rep: string)
    requires |pat| > 0
    requires !Contains(s, pat)
    ensures Replace(s, pat, rep) == s
  {
    ReplaceIsJoinOfSplit(s, pat, rep);
    SplitAbsent(s, pat);
  }

  /** A string lacking one of the characters of `pat` has nothing to replace. */
  lemma {:induction false} ReplaceMissingChar(s: string, pat: string, rep: string, k: nat)
    requires |pat| > 0 && k < |pat|
    requires forall i :: 0 <= i < |s| ==> s[i] != pat[k]
    ensures Replace(s, pat, rep) == s
    decreases |s|
  {
    if |s| >= |pat| {
      assert s[..|pat|][k] != pat[k];
      ReplaceMissingChar(s[1..], pat, rep, k);
      assert s == [s[0]] + s[1..];
    }
  }

  /** Prefixing the first piece prefixes the join. */
  lemma JoinHead(p: seq<string>, h: string, sep: string)
    requires |p| > 0
    ensures Join([h + p[0]] + p[1..], sep) == h + Join(p, sep)
  {
    var q := [h + p[0]] + p[1..];
    assert q[1..] == p[1..];
  }

  /** Strict code-point (lexicographic) order on strings, a proper prefix coming first. */
  predicate StrLess(a: string, b: string) {
    if |a| == 0 then |b| > 0
    else if |b| == 0 then false
    else if a[0] != b[0] then a[0] < b[0]
    else StrLess(a[1..], b[1..])
  }

  lemma {:induction false} StrLessIrreflexive(a: string)
    ensures !StrLess(a, a)
  {
    if |a| > 0 {
      StrLessIrreflexive(a[1..]);
    }
  }

  lemma {:induction false} StrLessTransitive(a: string, b: string, c: string)
    requires StrLess(a, b) && StrLess(b, c)
    ensures StrLess(a, c)
  {
    if |a| > 0 && |b| > 0 && |c| > 0 && a[0] == b[0] && b[0] == c[0] {
      StrLessTransitive(a[1..], b[1..], c[1..]);
    }
  }

  lemma {:induction false} StrLessTotal(a: string, b: string)
    ensures a == b || StrLess(a, b) || StrLess(b, a)
  {
    if |a| > 0 && |b| > 0 && a[0] == b[0] {
      StrLessTotal(a[1..], b[1..]);
      if a[1..] == b[1..] {
        assert a == [a[0]] + a[1..] && b == [b[0]] + b[1..];
      }
    }
  }

  /** No two strings precede each other. */
  lemma StrLessAsymmetric()
    ensures forall a, b :: !(StrLess(a, b) && StrLess(b, a))
  {
    forall a, b | StrLess(a, b) && StrLess(b, a) ensures false {
      StrLessTransitive(a, b, a);
      StrLessIrreflexive(a);
    }
  }
}
